=== FILE: README.md ===
# psychosynth node scheduler and declick rewiring, in Dafny

This project models the core of psychosynth's signal-flow graph engine (libpsynth):

- **Per-block pull scheduler.** Every block, the audio driver calls `advance` on each node (`Object`) and then pulls the sink. `update` asks `canUpdate` whether this pull may recompute the node. If so, it applies the parameters. Unless the node is muted and its output envelope has finished fading out, it then recursively pulls the node's inputs and runs the node's `doUpdate`. Either way it finally advances the declick envelopes and applies finished rewires.
- **Declick connection protocol.** `connectIn` does not rewire an input whose envelope is mid-ramp. It records the request, releases the input's envelope and lets `updateInSockets` rewire once the fade-out has finished. An input whose envelope has finished its ramp, whether fully released or pressed and full, is rewired in the same call. `forceConnectIn` performs the actual rewire and keeps each output socket's reverse-reference list up to date.
- **Connection queries.** `hasConnections`, `clearConnections`, `getInput`, `getOutput` and `param(name)`.
- **Audio oscillator's channel copy.** After the waveform fills channel 0 of the output buffer, it is copied into every other channel.

Modules, one per file:

| file | module | contents |
|---|---|---|
| base.dfy | `Base` | `Option`, which plays the role of a nullable pointer, node ids and sample buffers |
| envelope.dfy | `Envelope` | the declick envelope as an integer ramp with `press`, `release`, `update(n)` and `finished` |
| sockets.dfy | `Sockets` | input sockets (live and pending source) and output sockets with their reverse-reference lists |
| nodes.dfy | `Nodes` | one node: construction, parameters, `canUpdate`, `advance`, `updateParams`, `updateEnvelopes`, `getOutput`, `hasConnections` |
| graph.dfy | `Graph` | the arena of nodes: `forceConnectIn`, `connectIn`, `updateInSockets`, `clearReferences`, `clearConnections`, `getInput` and the reverse-reference invariant |
| scheduler.dfy | `Scheduler` | the recursive `update` pull across the arena, and `advance` over all nodes |
| oscillator.dfy | `Oscillator` | the oscillator's `do_update` channel replication |

Modelling choices:

- **The graph is an arena.** It is a map from node id to an immutable node record. A socket refers to another node by `(id, port)` rather than by pointer. The caller's id (`caller->getID()`) and `this` are both the node's key in the map.
- **The envelope is abstract.** `EnvelopeSimple` ramps a float by a per-sample delta. Here the ramp is counted in whole samples: `level` runs from 0 to `span`, and `span = ceil(sampleRate / 20)` (0.05 s, the rise and fall time). `Finished` means the level sits at the end the last `press` or `release` points to. `EnvelopeSimple` is not part of this model. A default-constructed envelope is taken to start pressed and full, and that is how the input envelopes start: `Object.cpp:63-64` only default-constructs them, and `:82-87` only sets their deltas. The constructor's `set(1.0f)` (`Object.cpp:89-90`) applies to the output envelope alone, which the model also starts pressed and full.
- **Input sockets follow `Object.cpp`.** The header's `InSocket` has only the live source fields. `Object.cpp` also uses pending fields (`src_obj`, `src_sock`, `must_update`) and a parallel `m_in_envelope` array. One `InSocket` record here carries the live source, the pending source and the envelope. The inputs are `InSocketManual` (`Object.cpp:61-62`), which is not part of this model. `Object.cpp:141`, `:146`, `:156` and `:161` call `isEmpty()`, which neither socket class in `Object.h` defines. That an input is empty when it has no source, and an output when it lists no consumer, is therefore inferred from the fields the header does show (`Sockets.IsEmpty`, `Sockets.IsUnused`).
- **The removal-index quirk is modelled as written.** `forceConnectIn` looks for the old reverse reference at output `out_socket` of the old source, and `out_socket` is the NEW port. The reverse-reference invariant (`Graph.Consistent`) is therefore proved preserved only when the old port equals the new one, or there was no old source. `Graph.StaleReferenceWhenPortsDiffer` proves that otherwise a stale reference stays behind and the invariant breaks.
- **`clearConnections` fades out.** Its code calls `connectIn(i, j, NULL, 0)`, so an input caught mid-ramp is disconnected only after its fade-out. The model follows the code.
- **`getInput` also yields nothing for a muted source.** `getData` returns the source's `getOutput`, and that is null while the source is muted. "No input" therefore means no source OR a muted source.
- **Undefined indices become no-ops.** Where `Object.cpp` would index past a vector or follow a node the graph no longer holds, the model leaves the socket alone. Examples are a reverse reference at an output the node lacks, or a consumer port out of range.
- **`update` takes three extra parameters:**
  - `fuel` bounds the recursion depth.
  - `doUpdate` is a parameter `compute`. It maps the arena, the node, and the pull's caller, port type and port to the node's new output buffers.
  - The result carries the list of nodes whose `doUpdate` ran, in order. This list is observation only.
- **Parameter values are not modelled.** Only parameter names, indices and types are kept, plus the mute flag, which the node holds as an integer.

## Model

| member | source | states |
|---|---|---|
| `Envelope.New` | libpsynth/object/Object.cpp:89-90 | a new envelope is within range, pressed, fully open and already finished |
| `Envelope.Press` | libpsynth/object/Object.cpp:183 | press turns the ramp upwards from the current level; it is finished exactly when already at the top |
| `Envelope.Release` | libpsynth/object/Object.cpp:174 | release turns the ramp downwards from the current level; it is finished exactly when already at the bottom |
| `Envelope.SetFull` | libpsynth/object/Object.cpp:90 | `set(1.0)` puts the level at the top of the ramp and keeps the direction |
| `Envelope.Advance` | libpsynth/object/Object.cpp:239 | `update(n)` stays in range, moves only in the ramp's direction, leaves a finished envelope alone, finishes within one ramp length, and moves an unfinished one whenever n > 0 |
| `Envelope.AdvanceAdditive` | libpsynth/object/Object.cpp:252 | advancing over two blocks ends where one block of the combined length would |
| `Envelope.ReleaseSettles` | libpsynth/object/Object.cpp:172-174 | after a release, the fade finishes within as many samples as the current level |
| `Sockets.NewOutSocket` | libpsynth/object/Object.h:68 | a new output socket has the given type and no consumer, so it is `isEmpty` (`Sockets.IsUnused`) |
| `Sockets.AddReference` | libpsynth/object/Object.h:70-72 | the pair is appended at the end and everything before is kept, so a pair can be listed twice |
| `Sockets.WithoutSpec` | libpsynth/object/Object.h:74-76 | list removal (`Sockets.Without`, the `std::list::remove` call) drops every occurrence of the pair and keeps every other pair with its multiplicity |
| `Sockets.WithoutConcat` | libpsynth/object/Object.h:74-76 | removal works piecewise over a concatenation, so the surviving pairs keep their order |
| `Sockets.WithoutAbsent` | libpsynth/object/Object.h:74-76 | removing a pair that is not listed leaves the list unchanged |
| `Sockets.RemoveReference` | libpsynth/object/Object.h:74-76 | `removeReference` leaves the pair absent and every other pair counted as before |
| `Sockets.RemoveUndoesAdd` | libpsynth/object/Object.h:70-76 | adding a pair that was not listed and then removing it restores the socket |
| `Sockets.NewInSocket` | libpsynth/object/Object.h:98-99 | a new input socket has no source, so it is `isEmpty` (`Sockets.IsEmpty`), port 0, nothing pending and a finished envelope |
| `Sockets.Set` | libpsynth/object/Object.h:101-104 | `set` overwrites exactly the live source and port |
| `Nodes.FindParam` | libpsynth/object/Object.cpp:113-122 | `param(name)` finds the first parameter with that name, or reports the null parameter when no name matches |
| `Nodes.FindParamAppend` | libpsynth/object/Object.cpp:93-98 | appending a parameter never moves an earlier name, and an unseen name is found at the new index |
| `Nodes.AddParam` | libpsynth/object/Object.cpp:93-98 | the new parameter is appended with index equal to the old count; earlier lookups are kept and a new name is found there |
| `Nodes.WithCommonParams` | libpsynth/object/Object.cpp:55-57 | position, radious and mute are found at indices 0, 1 and 2 |
| `Nodes.NewNode` | libpsynth/object/Object.cpp:37-67 | socket counts, as `getNumInput`/`getNumOutput` (Object.h:267-273, `Nodes.NumInput`/`Nodes.NumOutput`) report them, and buffer counts equal the constructor arguments; the common parameters sit at their fixed indices; the node is unmuted, unmarked and unconnected; its mute envelope is open |
| `Nodes.BareNode` | libpsynth/object/Object.cpp:42-64 | socket and buffer counts are the constructor arguments, every socket is fresh, the node is unmuted and unmarked with no parameter yet, and its mute envelope is open |
| `Nodes.BareNodeUnconnected` | libpsynth/object/Object.cpp:59-62 | a node built from fresh sockets has no connection, and its inputs are typed, in range and not pending |
| `Nodes.AnyLive` | libpsynth/object/Object.cpp:154-157 | true exactly when some input socket is not `isEmpty` (`Sockets.IsEmpty`), that is, has a source |
| `Nodes.AnyUsed` | libpsynth/object/Object.cpp:159-162 | true exactly when some output socket is not `isEmpty` (`Sockets.IsUnused`), that is, has a consumer |
| `Nodes.HasConnections` | libpsynth/object/Object.cpp:150-165 | true exactly when some input of either type has a source or some output of either type has a consumer |
| `Nodes.CanUpdate` | libpsynth/object/Object.cpp:195-209 | in single-update mode or without a caller, admits iff the node was not yet updated; otherwise admits iff the (caller, port) pair is new for that link type and records it, leaving the other type's set alone; `updated` is set in every case |
| `Nodes.RefusedPullOnlyMarks` | libpsynth/object/Object.cpp:200-206 | a refused pull changes nothing but the `updated` flag |
| `Nodes.SecondPullRefused` | libpsynth/object/Object.cpp:195-209 | the same pull repeated right away is refused |
| `Nodes.Advance` | libpsynth/object/Object.h:215-223 | `advance` clears `updated`; it empties both visited sets in multi-update mode and keeps them in single-update mode; nothing else changes |
| `Nodes.AdvanceReadmits` | libpsynth/object/Object.h:215-220 | after `advance`, any pull is admitted |
| `Nodes.UpdateParams` | libpsynth/object/Object.cpp:272-283 | the mute envelope ends up released iff the node is muted and pressed otherwise, with its level unchanged |
| `Nodes.RecomputeUnlessSilenced` | libpsynth/object/Object.cpp:299 | after `updateParams`, the node recomputes unless it is muted and its fade-out has reached silence |
| `Nodes.AdvanceEnvs` | libpsynth/object/Object.cpp:235-239 | every input envelope advances by the block size, and the socket is otherwise untouched |
| `Nodes.UpdateEnvelopes` | libpsynth/object/Object.cpp:231-253 | all input envelopes and the mute envelope advance by one block; wiring and bookkeeping stay the same |
| `Nodes.GetOutput` | libpsynth/object/Object.h:163-180 | null iff the node is muted or the link type is neither audio nor control; otherwise the buffer at that index |
| `Graph.PutIn` | libpsynth/object/Object.cpp:189 | one input socket is replaced; every other socket of every node is kept |
| `Graph.PutOut` | libpsynth/object/Object.cpp:187 | one output socket is replaced; every input and every other output is kept |
| `Graph.Unlink` | libpsynth/object/Object.cpp:185-187 | `removeReference` applies to the one output named, and the arena is unchanged if that output does not exist |
| `Graph.Link` | libpsynth/object/Object.cpp:191-192 | `addReference` applies to the one output named, and the arena is unchanged if that output does not exist |
| `Graph.Detach` | libpsynth/object/Object.cpp:183-189 | press, unlink at the NEW port of the old source, then set; only that output list and that input change |
| `Graph.ForceConnectIn` | libpsynth/object/Object.cpp:181-193 | the input is pressed and reads from (src, out); every other input is kept |
| `Graph.ForceConnectInOtherRefs` | libpsynth/object/Object.cpp:181-193 | every reverse-reference list other than output `out` of the old and new sources is kept |
| `Graph.ForceConnectInUnlinks` | libpsynth/object/Object.cpp:185-187 | the old source loses every listing of (this, i) at output `out` |
| `Graph.ForceConnectInLinks` | libpsynth/object/Object.cpp:191-192 | a non-null new source gains (this, i) at the end of output `out` |
| `Graph.ForceConnectInNullAddsNothing` | libpsynth/object/Object.cpp:191 | a null source registers the input nowhere |
| `Graph.ForceConnectInRewires` | libpsynth/object/Object.cpp:181-193 | the full effect of `forceConnectIn` on every reverse-reference list |
| `Graph.RewiredSocketBacked` | libpsynth/object/Object.cpp:189-192 | when the rewire fits, the rewired input is listed exactly once by its new source |
| `Graph.OtherSocketBacked` | libpsynth/object/Object.cpp:181-193 | every other input keeps its single listing |
| `Graph.RewireKeepsBacked` | libpsynth/object/Object.cpp:181-193 | when the rewire fits, every input with a source is listed exactly once by it afterwards |
| `Graph.RewireKeepsPointsBack` | libpsynth/object/Object.cpp:181-193 | when the rewire fits, every listed consumer reads from the output that lists it |
| `Graph.RewireKeepsOtherPointsBack` | libpsynth/object/Object.cpp:181-193 | a listing other than the rewired socket's was there before the rewire and still names a consumer reading from that output |
| `Graph.ForceConnectInKeepsConsistent` | libpsynth/object/Object.cpp:181-193 | `forceConnectIn` keeps reverse references and live sources exact inverses when there was no old source or the port is unchanged |
| `Graph.StaleReferenceWhenPortsDiffer` | libpsynth/object/Object.cpp:185-187 | moving a connected input to a different port leaves its old listing behind and breaks the invariant |
| `Graph.WiringUnchanged` | libpsynth/object/Object.cpp:169-174 | edits that touch no live source, port or reference list keep the invariant |
| `Graph.ConnectIn` | libpsynth/object/Object.cpp:167-179 | the request is always recorded as pending; on an input whose envelope is mid-ramp the live source and every reference list are kept, the flag is set and the envelope released; on a finished one the input is rewired at once and the flag cleared |
| `Graph.ConnectInRewiresSettledAtOnce` | libpsynth/object/Object.cpp:167-179 | an input whose envelope is pressed and full (finished at the top of its ramp) is rewired in the same call, with no pending flag and its envelope left at full level |
| `Graph.ConnectInRewires` | libpsynth/object/Object.cpp:167-178 | on an input whose envelope has finished, every reverse-reference list ends up exactly as `forceConnectIn` to the requested pair leaves it |
| `Graph.FlaggedThenRewired` | libpsynth/object/Object.cpp:169-177 | touching only an input's pending fields before a rewire does not change what the rewire does to the arena |
| `Graph.ConnectInKeepsConsistent` | libpsynth/object/Object.cpp:167-179 | `connectIn` keeps the reverse-reference invariant unconditionally when it defers, and when it rewires at once provided the rewire fits |
| `Graph.SettleOne` | libpsynth/object/Object.cpp:262-268 | a pending rewire whose envelope has finished is applied and its flag cleared; every other input is kept; with nothing due the arena is unchanged |
| `Graph.SettleOneRewires` | libpsynth/object/Object.cpp:262-268 | a due rewire moves every reverse-reference list exactly as `forceConnectIn` to the pending pair does; with nothing due the arena is unchanged |
| `Graph.SettleOneKeepsConsistent` | libpsynth/object/Object.cpp:262-268 | a settle step keeps the reverse-reference invariant when its due rewire fits |
| `Graph.SettleFrom` | libpsynth/object/Object.cpp:260-269 | the loop settles each remaining socket of one type, touching nothing before it, no other type and no other node's inputs |
| `Graph.SettleFromKeepsConsistent` | libpsynth/object/Object.cpp:260-269 | the loop over one type keeps the invariant when every due rewire in it fits |
| `Graph.UpdateInSockets` | libpsynth/object/Object.cpp:255-270 | every input of the node is settled as above, and no other node's inputs change |
| `Graph.UpdateInSocketsKeepsConsistent` | libpsynth/object/Object.cpp:255-270 | applying the due rewires keeps the reverse-reference invariant when each of them fits |
| `Graph.EnvelopesKeepConsistent` | libpsynth/object/Object.cpp:231-253 | advancing a node's envelopes keeps the reverse-reference invariant |
| `Graph.NullConsumer` | libpsynth/object/Object.h:81 | exactly the named consumer's input of that type is set to (null, 0); outputs are kept |
| `Graph.NullConsumers` | libpsynth/object/Object.h:79-81 | every input listed becomes (null, 0), and every unlisted input is kept |
| `Graph.ClearReferences` | libpsynth/object/Object.h:78-82 | an input of that type becomes (null, 0) exactly when the output's list names it, and is otherwise kept; the list itself is not emptied, and no output changes |
| `Graph.DisconnectFrom` | libpsynth/object/Object.cpp:139-142 | each remaining input of one type reads from nothing or has a disconnection pending behind a fade-out |
| `Graph.DisconnectOne` | libpsynth/object/Object.cpp:141-142 | a connected input goes through `connectIn(NULL, 0)` and ends up disconnected or disconnecting; no other input changes |
| `Graph.DisconnectInputs` | libpsynth/object/Object.cpp:139-142 | every own input of both types reads from nothing or has a disconnection pending behind a fade-out; every other node's inputs are kept |
| `Graph.ClearOutOne` | libpsynth/object/Object.cpp:145-147 | the consumers of one output read from nothing; any other input is kept or nulled |
| `Graph.ClearOutFrom` | libpsynth/object/Object.cpp:144-147 | the consumers of every remaining output of one type read from nothing |
| `Graph.ClearOutCompose` | libpsynth/object/Object.cpp:144-147 | clearing one output and then the rest clears them all |
| `Graph.ClearOutputs` | libpsynth/object/Object.cpp:144-147 | every consumer of either type reads from nothing, and the node's own disconnecting inputs stay so; no output changes, and every input is kept or becomes (null, 0) |
| `Graph.ClearConnections` | libpsynth/object/Object.cpp:135-148 | afterwards each own input reads from nothing or is fading out towards a disconnection, and every listed consumer reads from nothing (with consistent reverse references, no other node reads from it: `ClearConnectionsDetachesReaders`) |
| `Graph.ClearConnectionsDetachesReaders` | libpsynth/object/Object.cpp:136-148 | when every input is listed by its source, afterwards no other node has an input of either type reading from the cleared node |
| `Graph.ReaderDetached` | libpsynth/object/Object.cpp:136-148 | the same for one input of one other node: a reader of the cleared node was listed by it, is still listed after the first loop, and is nulled by the second |
| `Graph.ListedReaderDetached` | libpsynth/object/Object.cpp:144-147 | the output loop leaves no other node reading from this one through an input its output lists name |
| `Graph.DisconnectInputsKeepsListings` | libpsynth/object/Object.cpp:139-142 | disconnecting the node's own inputs keeps every other node listed at the node's outputs |
| `Graph.DisconnectFromKeepsListed` | libpsynth/object/Object.cpp:139-142 | disconnecting the inputs of one type from `j` on keeps a listing of another node |
| `Graph.DisconnectFromStep` | libpsynth/object/Object.cpp:139-142 | one disconnection keeps such a listing, and the loop continues from its result |
| `Graph.DisconnectOneKeepsListings` | libpsynth/object/Object.cpp:141-142 | `connectIn(NULL, 0)` on one of the node's inputs removes no other node's listing at its outputs |
| `Graph.NullRewireKeepsListings` | libpsynth/object/Object.cpp:181-193 | a rewire to nothing drops only the rewired input's own reference |
| `Graph.ClearingClearsOrKeeps` | libpsynth/object/Object.cpp:144-147 | after the audio and the control output loops, every input of either type is kept or becomes (null, 0) |
| `Graph.ClearingKeepsDisconnecting` | libpsynth/object/Object.cpp:144-147 | clearing outputs keeps the node's own inputs disconnected or disconnecting |
| `Graph.ClearingNullsConsumers` | libpsynth/object/Object.cpp:144-147 | after both output loops, every consumer of either type reads from nothing |
| `Graph.GetInput` | libpsynth/object/Object.h:254-257 | null iff the input has no source or the source is muted; otherwise the source's buffer at the stored port |
| `Scheduler.Finish` | libpsynth/object/Object.cpp:304-305 | envelopes advance, then every input of the node is settled; buffers, bookkeeping and other nodes' inputs are kept |
| `Scheduler.FinishKeepsConsistent` | libpsynth/object/Object.cpp:304-305 | the tail of `update` keeps the reverse-reference invariant when every rewire due after the envelope advance fits |
| `Scheduler.Update` | libpsynth/object/Object.cpp:294-307 | a pull only adds to every node's bookkeeping; a refused pull only sets `updated`; an admitted pull ends its log with the node iff the node is unmuted or still fading out (what it stores and what it pulls: `AdmittedPullRecomputes`, `AdmittedPullPullsInputs`) |
| `Scheduler.AdmittedNode` | libpsynth/object/Object.cpp:296-299 | an admitted node is marked, keeps its inputs and single-update mode, and goes on to recompute exactly when it is not muted and silent |
| `Scheduler.AdmittedPullRecomputes` | libpsynth/object/Object.cpp:294-302 | an admitted pull of a node that is not muted and silent leaves in the node exactly the buffers `doUpdate` computed, for this caller and port, from an arena whose bookkeeping only grew |
| `Scheduler.AdmittedPullPullsInputs` | libpsynth/object/Object.cpp:294-302 | an admitted pull of a single-update node that is not muted and silent, with fuel left, pulls the source of every connected input: each ends marked `updated`, and a multi-update source has the visit from this node's port recorded |
| `Scheduler.AdmittedPullFinishes` | libpsynth/object/Object.cpp:294-307 | every admitted pull ends with envelopes advanced and due rewires applied, whether or not it recomputed |
| `Scheduler.Run` | libpsynth/object/Object.cpp:297-305 | the node closes the log iff it should recompute, and the pull only adds to the bookkeeping (what it stores and pulls: `RunRecomputes`, `RunPullsInputs`) |
| `Scheduler.RunRecomputes` | libpsynth/object/Object.cpp:299-302 | a recomputing run stores in the node exactly what `doUpdate` made, for the caller and port, of the arena the pull of the inputs left |
| `Scheduler.RecomputingRun` | libpsynth/object/Object.cpp:299-305 | a recomputing run is the pull of the inputs, then `doUpdate`'s buffers stored, then the tail of `update` |
| `Scheduler.Pulled` | libpsynth/object/Object.cpp:300 | what a run pulls before `doUpdate` only adds to the bookkeeping |
| `Scheduler.StoredThroughFinish` | libpsynth/object/Object.cpp:301-305 | the tail of `update` keeps the buffers `doUpdate` stored |
| `Scheduler.FinishInstallKeepsMarks` | libpsynth/object/Object.cpp:301-305 | storing the buffers and the tail of `update` only keep the bookkeeping |
| `Scheduler.RunPullsInputs` | libpsynth/object/Object.cpp:299-300 | a recomputing run of a single-update node already marked, with fuel left, reaches the source of every connected audio and control input |
| `Scheduler.RunFinishes` | libpsynth/object/Object.cpp:297-305 | the rest of an admitted pull always comes out of the envelope-and-rewire tail |
| `Scheduler.Install` | libpsynth/object/Object.cpp:301 | `doUpdate`'s buffers, as many of each type as the node holds, replace this node's output buffers; nothing else changes |
| `Scheduler.PullInputs` | libpsynth/object/Object.cpp:285-292 | pulling all inputs only adds to the bookkeeping (what it reaches: `PullInputsReaches`) |
| `Scheduler.PullInputsReaches` | libpsynth/object/Object.cpp:285-292 | `updateInputs` on a single-update node already marked reaches the source of every connected input of both types |
| `Scheduler.PullInputsKeepsSealedInputs` | libpsynth/object/Object.cpp:285-292 | `updateInputs` leaves the inputs of a single-update node already marked untouched |
| `Scheduler.PullSockets` | libpsynth/object/Object.cpp:211-214 | pulling inputs from `j` on only adds to the bookkeeping (what it reaches: `PullSocketsReaches`) |
| `Scheduler.PullSocketsReaches` | libpsynth/object/Object.cpp:211-214 | pulling inputs `j` to `count - 1` of a single-update node already marked reaches the source of each connected one, naming this node and that port as the caller |
| `Scheduler.PullSocketsKeepsSealedInputs` | libpsynth/object/Object.cpp:211-214 | pulling a run of inputs leaves the inputs of a single-update node already marked untouched |
| `Scheduler.UpdateKeepsSealedInputs` | libpsynth/object/Object.cpp:294-307 | no pull changes the inputs of a single-update node already marked: `canUpdate` refuses it, and only an admitted node settles its own inputs |
| `Scheduler.RunKeepsSealedInputs` | libpsynth/object/Object.cpp:297-305 | the rest of an admitted pull of another node leaves such a node's inputs untouched |
| `Scheduler.RunKeepsPulledInputs` | libpsynth/object/Object.cpp:301-305 | after the pull of the inputs, `doUpdate` and the tail of `update` change no other node's inputs |
| `Scheduler.InstallFinishKeepsOtherInputs` | libpsynth/object/Object.cpp:301-305 | storing one node's buffers and finishing it leave another node's inputs as they were |
| `Scheduler.FinishKeepsOtherInputs` | libpsynth/object/Object.cpp:304-305 | the tail of `update` leaves every other node's inputs as they were |
| `Scheduler.ReachedKept` | libpsynth/object/Object.cpp:195-209 | once a pull has reached a node, later pulls in the block do not undo it |
| `Scheduler.ReachedAllKept` | libpsynth/object/Object.cpp:195-209 | likewise for every connected input of a node at once |
| `Scheduler.GateKeepsMarks` | libpsynth/object/Object.cpp:195-209 | `canUpdate` only adds to the bookkeeping |
| `Scheduler.GateKeepsContents` | libpsynth/object/Object.cpp:195-209 | `canUpdate` leaves sockets, envelope, info, mute and buffers alone |
| `Scheduler.SecondPullIsNoop` | libpsynth/object/Object.cpp:294-307 | repeating the same pull later in the same block, on any arena whose bookkeeping only grew since the first, changes nothing and recomputes nothing |
| `Scheduler.LaterPullRefused` | libpsynth/object/Object.cpp:195-209 | after any pull of a node in a block, every later pull of it in that block is refused if the node is single-update or the pull has no caller |
| `Scheduler.SilencedPullSkipsRecompute` | libpsynth/object/Object.cpp:296-306 | an admitted pull of a silenced node recomputes nothing and keeps its buffers; its envelopes still advance, its finished rewires are still applied, and no other node's inputs change |
| `Scheduler.SilencedFinish` | libpsynth/object/Object.cpp:304-305 | the tail of `update` on a node whose inputs and buffers are as before |
| `Scheduler.AdvanceAll` | libpsynth/object/Object.h:215-223 | the block boundary applies `advance` to every node and keeps the node set |
| `Scheduler.BlockStartAdmits` | libpsynth/object/Object.h:215-220 | after the block boundary, every node admits its first pull |
| `Oscillator.Replicate` | libpsynth/node/node_audio_oscillator.cpp:40-42 | channels 1 to numChannels-1 equal channel 0 on the first block; channel 0, samples past the block and channels past numChannels are untouched; with at most one channel nothing changes |
| `Oscillator.DoUpdate` | libpsynth/node/node_audio_oscillator.cpp:33-43 | requires a non-null output buffer; channel 0 holds the waveform and every copied channel the same block; only output buffer `OUT_A_OUTPUT` changes |
| `Oscillator.FadingNodeHasNoBuffer` | libpsynth/node/node_audio_oscillator.cpp:35-36 | a muted node still fading out is recomputed, yet `getOutput` hands it no buffer |

## Left out

- Envelope arithmetic: the `ENV_DELTA` float deltas and the float ramp. The envelope is an integer ramp counted in samples, and rounding of `sampleRate / 20` up to whole samples is a modelling choice.
- The output gain `updateEnvelopes` applies in place to the output buffers (the soft mute). Sample values are not computed on.
- `update_osc`: the waveform arrives as a parameter of `Oscillator.DoUpdate`.
- Oscillator.DoUpdate: requires `getOutput` to hand it a buffer, so it says nothing about the call it excludes. `Object.cpp:299-301` does call `doUpdate` on a muted node still fading out, and then `getOutput` returns NULL (`Object.h:164-165`; see `Oscillator.FadingNodeHasNoBuffer`). `node_audio_oscillator.cpp:35-36` dereferences that NULL, which is undefined behaviour in C++ and has nothing to model. The oscillator is also written against a `node`/`get_output`/`get_info` API. That API is taken to behave like `Object`/`getOutput`/`getInfo` in `Object.h`; its own header is not part of this model.
- `ObjParam::update` callbacks and parameter values, and the `Watch` observers `updateInput` notifies. These are foreign code.
- The parameter mutex and the unsynchronised `updateInSockets` (a concurrency concern).
- `delParam`, which only decrements a counter. With it gone the parameter count always equals the list length, so the count is not a separate field.
- The distance helpers, `setInfo`/`onInfoChange` and `doAdvance`: float geometry, or hooks whose bodies are node-specific.
- `OUT_A_OUTPUT` is taken to be 0. The oscillator header that defines it is not part of this model.
- Scheduler.Update: the recursion is bounded by `fuel`, a bound `Object.cpp` does not need. There `canUpdate` sets `m_updated` or records the `(caller, port)` visit before `updateInputs` recurses, so a cycle is cut when it comes back to a node. Once the fuel runs out, the model pulls no further upstream nodes. For that case it promises only what holds for every fuel (bookkeeping grows, the tail of `update` runs); `Scheduler.AdmittedPullPullsInputs` needs `fuel > 0`.
- Scheduler.AdmittedPullPullsInputs, Scheduler.RunPullsInputs, Scheduler.PullInputsReaches, Scheduler.PullSocketsReaches: stated for single-update nodes only. A multi-update node can be admitted again, by another caller or port, while its own inputs are being pulled. That nested pull settles its inputs, so a later input may then name a different source than the one the first pull started from.
- Graph.ForceConnectInKeepsConsistent: proved only when the old port equals the new one or there was no old source, because `forceConnectIn` removes the old reference at the new port (see `Graph.StaleReferenceWhenPortsDiffer`).
- Graph.ConnectInKeepsConsistent: likewise, when it rewires at once, only when that rewire fits.
- Graph.UpdateInSocketsKeepsConsistent: likewise, only when every due rewire fits (`Graph.PendingFits`).
- Graph.ConnectIn: a settled connection, whose envelope is pressed and full, is rewired at once, without fade-out or fade-in. The declick guarantee covers only inputs caught mid-ramp. This rests on an assumption: `EnvelopeSimple::finished()` is taken to be true at the end the last press or release points to. `EnvelopeSimple` is not part of this model. The model promises no fade for such an input (see `Graph.ConnectInRewiresSettledAtOnce`).

=== FILE: base.dfy ===
/** Shared vocabulary of the signal-flow graph model: optional values (psychosynth's
    nullable pointers), node identifiers and sample buffers. */
module Base {

  /** A nullable reference: `None` plays the role of a NULL pointer. */
  datatype Option<+T> = None | Some(value: T)

  /** Nodes are addressed by the integer id the owning graph assigns them;
      sockets store ids rather than pointers. */
  type NodeId = int

  /** Sample values are only ever copied in this model, never computed on. */
  type Sample = real

  /** A control buffer is a single block of samples. */
  type ControlBuffer = seq<Sample>

  /** An audio buffer is channel-major: one block of samples per channel. */
  type AudioBuffer = seq<seq<Sample>>
}

=== FILE: envelope.dfy ===
/** The declick envelope (`EnvelopeSimple`), seen as an abstract ramp.

    psychosynth ramps a float between 0.0 and 1.0 by a per-sample delta of
    1 / (0.05 s * sample rate). Here the scalar is counted in samples: `level`
    runs between 0 and `span`, the number of samples a full rise or fall takes,
    so `level == span` stands for 1.0 and `level == 0` for 0.0. */
module Envelope {

  datatype Env = Env(level: nat, span: nat, rising: bool)

  /** Rise and fall both last 0.05 seconds: a twentieth of the sample rate,
      rounded up to whole samples. */
  function Span(sampleRate: nat): nat
  {
    (sampleRate + 19) / 20
  }

  /** The level stays inside the ramp's range. */
  predicate Valid(e: Env)
  {
    e.level <= e.span
  }

  /** The ramp has reached the extreme implied by the last press or release. */
  predicate Finished(e: Env)
  {
    if e.rising then e.level == e.span else e.level == 0
  }

  /** A new envelope starts pressed and fully open. */
  function New(span: nat): (e: Env)
    ensures Valid(e) && e.rising && Finished(e)
  {
    Env(span, span, true)
  }

  /** `press()`: ramp towards 1.0 from wherever the level is now. */
  function Press(e: Env): (r: Env)
    ensures r.rising && r.level == e.level && r.span == e.span
    ensures Finished(r) <==> r.level == r.span
  {
    e.(rising := true)
  }

  /** `release()`: ramp towards 0.0 from wherever the level is now. */
  function Release(e: Env): (r: Env)
    ensures !r.rising && r.level == e.level && r.span == e.span
    ensures Finished(r) <==> r.level == 0
  {
    e.(rising := false)
  }

  /** `set(1.0)`: jump to the top of the ramp without changing direction. */
  function SetFull(e: Env): (r: Env)
    ensures Valid(r) && r.level == r.span && r.rising == e.rising
  {
    e.(level := e.span)
  }

  /** `update(n)`: advance the ramp by `n` samples, clamped to its range. */
  function Advance(e: Env, n: nat): (r: Env)
    ensures Valid(r) && r.span == e.span && r.rising == e.rising
    ensures Valid(e) && e.rising ==> e.level <= r.level
    ensures !e.rising ==> r.level <= e.level
    ensures Valid(e) && Finished(e) ==> r == e
    ensures n >= e.span ==> Finished(r)
    ensures Valid(e) && !Finished(e) && n > 0 ==> r.level != e.level
  {
    var l := if e.level > e.span then e.span else e.level;
    if e.rising then
      e.(level := if l + n > e.span then e.span else l + n)
    else
      e.(level := if l > n then l - n else 0)
  }

  /** Advancing by `a` then by `b` samples is advancing by `a + b`: a ramp
      split over two blocks ends where one long block would. */
  lemma AdvanceAdditive(e: Env, a: nat, b: nat)
    requires Valid(e)
    ensures Advance(Advance(e, a), b) == Advance(e, a + b)
  {
  }

  /** After a release, a fade takes at most `level` samples to finish. */
  lemma ReleaseSettles(e: Env, n: nat)
    requires Valid(e) && n >= e.level
    ensures Finished(Advance(Release(e), n))
  {
  }
}

=== FILE: graph.dfy ===
/** The node arena and every operation that reaches from one node into
    another: rewiring an input socket (which edits the reverse-reference lists
    of source nodes), the two-phase declick connection, clearing connections
    and reading an input. */
module Graph {
  import opened Base
  import opened Envelope
  import opened Sockets
  import opened Nodes

  /** Nodes addressed by id; sockets refer to each other through these ids. */
  type Arena = map<NodeId, Node>

  /** `b` is `a` with only socket contents changed: the same number of
      sockets of each kind, and every other field equal. */
  predicate SocketsOnly(a: Node, b: Node)
  {
    && b == a.(inAudio := b.inAudio, inControl := b.inControl,
               outAudio := b.outAudio, outControl := b.outControl)
    && forall u :: |b.In(u)| == |a.In(u)| && |b.Out(u)| == |a.Out(u)|
  }

  /** Every node of `h` is its `g` counterpart with only socket contents changed. */
  predicate Reshaped(g: Arena, h: Arena)
  {
    h.Keys == g.Keys && forall k :: k in g ==> SocketsOnly(g[k], h[k])
  }

  lemma Sizes(g: Arena, h: Arena, k: NodeId, u: LinkType)
    requires Reshaped(g, h) && k in g
    ensures k in h && |h[k].In(u)| == |g[k].In(u)| && |h[k].Out(u)| == |g[k].Out(u)|
  {
  }

  lemma ReshapedTrans(a: Arena, b: Arena, c: Arena)
    requires Reshaped(a, b) && Reshaped(b, c)
    ensures Reshaped(a, c)
  {
  }

  /** No output socket anywhere differs between `g` and `h`. */
  predicate SameOutputs(g: Arena, h: Arena)
    requires Reshaped(g, h)
  {
    forall k, t :: k in g ==> h[k].Out(t) == g[k].Out(t)
  }

  /** No input socket differs, except possibly input `i` of type `t` on `id`. */
  predicate SameInputsBut(g: Arena, h: Arena, id: NodeId, t: LinkType, i: int)
    requires Reshaped(g, h)
  {
    forall k, u, j :: k in g && 0 <= j < |g[k].In(u)| && (k != id || u != t || j != i) ==>
      h[k].In(u)[j] == g[k].In(u)[j]
  }

  // ---------------------------------------------------------------------------
  // Primitive edits

  /** Replace input socket `i` of type `t` on node `id`. */
  function PutIn(g: Arena, id: NodeId, t: LinkType, i: int, s: InSocket): (r: Arena)
    requires id in g && 0 <= i < |g[id].In(t)|
    ensures Reshaped(g, r) && SameOutputs(g, r) && SameInputsBut(g, r, id, t, i)
    ensures r[id].In(t)[i] == s
  {
    var n := SetIn(g[id], t, i, s);
    assert forall u: LinkType :: u.Audio? || u.Control?;
    g[id := n]
  }

  /** Replace output socket `p` of type `t` on node `o`. */
  function PutOut(g: Arena, o: NodeId, t: LinkType, p: int, x: OutSocket): (r: Arena)
    requires o in g && 0 <= p < |g[o].Out(t)|
    ensures Reshaped(g, r) && SameInputsBut(g, r, o, t, -1)
    ensures forall k, u, q :: k in g && 0 <= q < |g[k].Out(u)| && (k != o || u != t || q != p) ==>
              r[k].Out(u)[q] == g[k].Out(u)[q]
    ensures r[o].Out(t)[p] == x
  {
    var n := SetOut(g[o], t, p, x);
    assert forall u: LinkType :: u.Audio? || u.Control?;
    assert forall u :: n.In(u) == g[o].In(u);
    g[o := n]
  }

  /** Apply `removeReference(r)` to output socket `p` of type `t` on node `o`;
      a socket the arena does not have is left alone. */
  function Unlink(g: Arena, o: NodeId, t: LinkType, p: int, x: Ref): (r: Arena)
    ensures Reshaped(g, r) && SameInputsBut(g, r, o, t, -1)
    ensures forall k, u, q :: k in g && 0 <= q < |g[k].Out(u)| && (k != o || u != t || q != p) ==>
              r[k].Out(u)[q] == g[k].Out(u)[q]
    ensures o in g && 0 <= p < |g[o].Out(t)| ==> r[o].Out(t)[p] == RemoveReference(g[o].Out(t)[p], x)
    ensures !(o in g && 0 <= p < |g[o].Out(t)|) ==> r == g
  {
    if o in g && 0 <= p < |g[o].Out(t)| then PutOut(g, o, t, p, RemoveReference(g[o].Out(t)[p], x))
    else g
  }

  /** Apply `addReference(r)` to output socket `p` of type `t` on node `o`;
      a socket the arena does not have is left alone. */
  function Link(g: Arena, o: NodeId, t: LinkType, p: int, x: Ref): (r: Arena)
    ensures Reshaped(g, r) && SameInputsBut(g, r, o, t, -1)
    ensures forall k, u, q :: k in g && 0 <= q < |g[k].Out(u)| && (k != o || u != t || q != p) ==>
              r[k].Out(u)[q] == g[k].Out(u)[q]
    ensures o in g && 0 <= p < |g[o].Out(t)| ==> r[o].Out(t)[p] == AddReference(g[o].Out(t)[p], x)
    ensures !(o in g && 0 <= p < |g[o].Out(t)|) ==> r == g
  {
    if o in g && 0 <= p < |g[o].Out(t)| then PutOut(g, o, t, p, AddReference(g[o].Out(t)[p], x))
    else g
  }

  // ---------------------------------------------------------------------------
  // Rewiring

  /** `forceConnectIn`: press the socket's envelope, drop the reverse reference
      from the old source, point the socket at `(src, out)` and register it
      with the new source. As in `Object.cpp`, the old reference is looked for at
      output `out` of the old source, which is the NEW port. An index or node
      the arena lacks (undefined behaviour in `Object.cpp`) is skipped. */
  function ForceConnectIn(g: Arena, id: NodeId, t: LinkType, i: int, src: Option<NodeId>, out: int): (r: Arena)
    requires id in g && 0 <= i < |g[id].In(t)|
    ensures Reshaped(g, r) && SameInputsBut(g, r, id, t, i)
    ensures var s := g[id].In(t)[i];
            r[id].In(t)[i] == Set(s, src, out).(env := Press(s.env))
  {
    var s := g[id].In(t)[i];
    var g3 := Detach(g, id, t, i, src, out);
    var g4 := if src.Some? then Link(g3, src.value, t, out, Ref(id, i)) else g3;
    ReshapedTrans(g, g3, g4);
    g4
  }

  /** The first three steps of `forceConnectIn`: press, unlink, set. */
  function Detach(g: Arena, id: NodeId, t: LinkType, i: int, src: Option<NodeId>, out: int): (r: Arena)
    requires id in g && 0 <= i < |g[id].In(t)|
    ensures Reshaped(g, r) && SameInputsBut(g, r, id, t, i)
    ensures var s := g[id].In(t)[i];
            r[id].In(t)[i] == Set(s, src, out).(env := Press(s.env))
    ensures var old_ := g[id].In(t)[i].src;
            forall k, u, q ::
              (k in g && 0 <= q < |g[k].Out(u)| && !(u == t && q == out && old_ == Some(k))) ==>
              r[k].Out(u)[q] == g[k].Out(u)[q]
    ensures var old_ := g[id].In(t)[i].src;
            old_.Some? && old_.value in g && 0 <= out < |g[old_.value].Out(t)| ==>
              0 <= out < |r[old_.value].Out(t)| &&
              r[old_.value].Out(t)[out] == RemoveReference(g[old_.value].Out(t)[out], Ref(id, i))
  {
    var s := g[id].In(t)[i];
    var g1 := PutIn(g, id, t, i, s.(env := Press(s.env)));
    var g2 := if s.src.Some? then Unlink(g1, s.src.value, t, out, Ref(id, i)) else g1;
    ReshapedTrans(g, g1, g2);
    var g3 := PutIn(g2, id, t, i, Set(g2[id].In(t)[i], src, out));
    ReshapedTrans(g, g2, g3);
    g3
  }

  /** `forceConnectIn` leaves every reverse-reference list alone except
      output `out` of the old and of the new source. */
  lemma ForceConnectInOtherRefs(g: Arena, id: NodeId, t: LinkType, i: int, src: Option<NodeId>, out: int,
                                k: NodeId, u: LinkType, q: int)
    requires id in g && 0 <= i < |g[id].In(t)|
    requires k in g && 0 <= q < |g[k].Out(u)|
    requires !(u == t && q == out && (g[id].In(t)[i].src == Some(k) || src == Some(k)))
    ensures var r := ForceConnectIn(g, id, t, i, src, out);
            0 <= q < |r[k].Out(u)| && r[k].Out(u)[q] == g[k].Out(u)[q]
  {
    var g3 := Detach(g, id, t, i, src, out);
    Sizes(g, g3, k, u);
  }

  /** `forceConnectIn` removes `(id, i)` from output `out` of the old source
      when that source is not also the new one. */
  lemma ForceConnectInUnlinks(g: Arena, id: NodeId, t: LinkType, i: int, src: Option<NodeId>, out: int)
    requires id in g && 0 <= i < |g[id].In(t)|
    requires var o := g[id].In(t)[i].src;
             o.Some? && o.value in g && 0 <= out < |g[o.value].Out(t)| && src != o
    ensures var r := ForceConnectIn(g, id, t, i, src, out);
            var o := g[id].In(t)[i].src.value;
            0 <= out < |r[o].Out(t)| &&
            r[o].Out(t)[out] == RemoveReference(g[o].Out(t)[out], Ref(id, i))
  {
    var o := g[id].In(t)[i].src.value;
    var g3 := Detach(g, id, t, i, src, out);
    Sizes(g, g3, o, t);
  }

  /** `forceConnectIn` appends `(id, i)` to output `out` of a new source,
      after dropping it there first when the new source is also the old one. */
  lemma ForceConnectInLinks(g: Arena, id: NodeId, t: LinkType, i: int, src: Option<NodeId>, out: int)
    requires id in g && 0 <= i < |g[id].In(t)|
    requires src.Some? && src.value in g && 0 <= out < |g[src.value].Out(t)|
    ensures var r := ForceConnectIn(g, id, t, i, src, out);
            var before := g[src.value].Out(t)[out];
            0 <= out < |r[src.value].Out(t)| &&
            r[src.value].Out(t)[out] ==
              AddReference(if g[id].In(t)[i].src == src then RemoveReference(before, Ref(id, i)) else before,
                           Ref(id, i))
  {
    var g3 := Detach(g, id, t, i, src, out);
    Sizes(g, g3, src.value, t);
  }

  /** A disconnection (`src` null) registers `(id, i)` nowhere. */
  lemma ForceConnectInNullAddsNothing(g: Arena, id: NodeId, t: LinkType, i: int, out: int,
                                      k: NodeId, u: LinkType, q: int)
    requires id in g && 0 <= i < |g[id].In(t)|
    requires k in g && 0 <= q < |g[k].Out(u)|
    ensures var r := ForceConnectIn(g, id, t, i, None, out);
            0 <= q < |r[k].Out(u)| &&
            multiset(r[k].Out(u)[q].refs)[Ref(id, i)] <= multiset(g[k].Out(u)[q].refs)[Ref(id, i)]
  {
    var g3 := Detach(g, id, t, i, None, out);
    Sizes(g, g3, k, u);
  }

  // ---------------------------------------------------------------------------
  // The reverse-reference invariant

  /** Input `i` of type `t` on node `k` is listed exactly once by the output
      socket it reads from. */
  ghost predicate Backed(g: Arena, k: NodeId, t: LinkType, i: int)
    requires k in g && 0 <= i < |g[k].In(t)| && g[k].In(t)[i].src.Some?
  {
    var s := g[k].In(t)[i];
    && s.src.value in g && 0 <= s.port < |g[s.src.value].Out(t)|
    && multiset(g[s.src.value].Out(t)[s.port].refs)[Ref(k, i)] == 1
  }

  /** The consumer `x` listed by output `p` of type `t` on node `k` reads from
      exactly that output. */
  ghost predicate PointsBack(g: Arena, k: NodeId, t: LinkType, p: int, x: Ref)
  {
    && x.node in g && 0 <= x.port < |g[x.node].In(t)|
    && g[x.node].In(t)[x.port].src == Some(k) && g[x.node].In(t)[x.port].port == p
  }

  /** Every output socket's reverse-reference list is the exact inverse of the
      input sockets reading from it. */
  ghost predicate Consistent(g: Arena)
  {
    && (forall k, t, i :: k in g && 0 <= i < |g[k].In(t)| && g[k].In(t)[i].src.Some? ==> Backed(g, k, t, i))
    && (forall k, t, p, x :: k in g && 0 <= p < |g[k].Out(t)| && x in g[k].Out(t)[p].refs ==>
          PointsBack(g, k, t, p, x))
  }

  /** The preconditions under which `forceConnectIn` keeps the invariant: the
      new source, if any, has the output named, and the old reference is
      looked for where it actually is (no old source, or the same port). */
  ghost predicate RewireFits(g: Arena, id: NodeId, t: LinkType, i: int, src: Option<NodeId>, out: int)
    requires id in g && 0 <= i < |g[id].In(t)|
  {
    && (src.Some? ==> src.value in g && 0 <= out < |g[src.value].Out(t)|)
    && (g[id].In(t)[i].src.None? || g[id].In(t)[i].port == out)
  }

  /** The list output `q` of type `u` on node `k` holds after
      `forceConnectIn(id, t, i, src, out)`, given the list `before` it held. */
  function RefsAfter(old_: Option<NodeId>, id: NodeId, t: LinkType, i: int, src: Option<NodeId>, out: int,
                     k: NodeId, u: LinkType, q: int, before: OutSocket): OutSocket
  {
    if u == t && q == out && src == Some(k) then
      AddReference(if old_ == src then RemoveReference(before, Ref(id, i)) else before, Ref(id, i))
    else if u == t && q == out && old_ == Some(k) then
      RemoveReference(before, Ref(id, i))
    else before
  }

  /** `r` is the arena `forceConnectIn(id, t, i, src, out)` makes of `g`,
      described through its effect only. */
  ghost predicate RewiredBy(g: Arena, r: Arena, id: NodeId, t: LinkType, i: int, src: Option<NodeId>, out: int)
  {
    && id in g && 0 <= i < |g[id].In(t)|
    && Reshaped(g, r) && SameInputsBut(g, r, id, t, i)
    && r[id].In(t)[i].src == src && r[id].In(t)[i].port == out
    && forall k, u, q :: k in g && 0 <= q < |g[k].Out(u)| ==>
         r[k].Out(u)[q] == RefsAfter(g[id].In(t)[i].src, id, t, i, src, out, k, u, q, g[k].Out(u)[q])
  }

  lemma ForceConnectInRewires(g: Arena, id: NodeId, t: LinkType, i: int, src: Option<NodeId>, out: int)
    requires id in g && 0 <= i < |g[id].In(t)|
    ensures RewiredBy(g, ForceConnectIn(g, id, t, i, src, out), id, t, i, src, out)
  {
    var r := ForceConnectIn(g, id, t, i, src, out);
    var old_ := g[id].In(t)[i].src;
    forall k, u, q | k in g && 0 <= q < |g[k].Out(u)|
      ensures r[k].Out(u)[q] == RefsAfter(old_, id, t, i, src, out, k, u, q, g[k].Out(u)[q])
    {
      Sizes(g, r, k, u);
      if u == t && q == out && src == Some(k) {
        ForceConnectInLinks(g, id, t, i, src, out);
      } else if u == t && q == out && old_ == Some(k) {
        ForceConnectInUnlinks(g, id, t, i, src, out);
      } else {
        ForceConnectInOtherRefs(g, id, t, i, src, out, k, u, q);
      }
    }
  }

  /** Under `RewireFits`, the rewired socket is listed exactly once by its new source. */
  lemma RewiredSocketBacked(g: Arena, r: Arena, id: NodeId, t: LinkType, i: int, src: Option<NodeId>, out: int)
    requires RewiredBy(g, r, id, t, i, src, out) && RewireFits(g, id, t, i, src, out) && src.Some?
    requires Ref(id, i) in g[src.value].Out(t)[out].refs ==> PointsBack(g, src.value, t, out, Ref(id, i))
    ensures 0 <= i < |r[id].In(t)| && r[id].In(t)[i].src.Some? && Backed(r, id, t, i)
  {
    var me := Ref(id, i);
    var before := g[src.value].Out(t)[out];
    Sizes(g, r, src.value, t);
    Sizes(g, r, id, t);
    assert r[src.value].Out(t)[out] == RefsAfter(g[id].In(t)[i].src, id, t, i, src, out, src.value, t, out, before);
    if g[id].In(t)[i].src != src {
      assert multiset(before.refs)[me] == 0;
    }
  }

  /** Any other socket keeps its single listing. */
  lemma OtherSocketBacked(g: Arena, r: Arena, id: NodeId, t: LinkType, i: int, src: Option<NodeId>, out: int,
                          k: NodeId, u: LinkType, j: int)
    requires RewiredBy(g, r, id, t, i, src, out)
    requires k in g && 0 <= j < |g[k].In(u)| && g[k].In(u)[j].src.Some? && Backed(g, k, u, j)
    requires k != id || u != t || j != i
    ensures 0 <= j < |r[k].In(u)| && r[k].In(u)[j].src.Some? && Backed(r, k, u, j)
  {
    var s := g[k].In(u)[j];
    Sizes(g, r, k, u);
    var o2, p2 := s.src.value, s.port;
    Sizes(g, r, o2, u);
    assert r[o2].Out(u)[p2] == RefsAfter(g[id].In(t)[i].src, id, t, i, src, out, o2, u, p2, g[o2].Out(u)[p2]);
  }

  lemma RewireKeepsBacked(g: Arena, r: Arena, id: NodeId, t: LinkType, i: int, src: Option<NodeId>, out: int,
                          k: NodeId, u: LinkType, j: int)
    requires RewiredBy(g, r, id, t, i, src, out) && Consistent(g) && RewireFits(g, id, t, i, src, out)
    requires k in r && 0 <= j < |r[k].In(u)| && r[k].In(u)[j].src.Some?
    ensures Backed(r, k, u, j)
  {
    Sizes(g, r, k, u);
    if k == id && u == t && j == i {
      RewiredSocketBacked(g, r, id, t, i, src, out);
    } else {
      assert r[k].In(u)[j] == g[k].In(u)[j];
      OtherSocketBacked(g, r, id, t, i, src, out, k, u, j);
    }
  }

  lemma RewireKeepsPointsBack(g: Arena, r: Arena, id: NodeId, t: LinkType, i: int, src: Option<NodeId>, out: int,
                              k: NodeId, u: LinkType, q: int, x: Ref)
    requires RewiredBy(g, r, id, t, i, src, out) && Consistent(g) && RewireFits(g, id, t, i, src, out)
    requires k in r && 0 <= q < |r[k].Out(u)| && x in r[k].Out(u)[q].refs
    ensures PointsBack(r, k, u, q, x)
  {
    Sizes(g, r, k, u);
    assert r[k].Out(u)[q] == RefsAfter(g[id].In(t)[i].src, id, t, i, src, out, k, u, q, g[k].Out(u)[q]);
    if x != Ref(id, i) || u != t {
      RewireKeepsOtherPointsBack(g, r, id, t, i, src, out, k, u, q, x);
    } else {
      Sizes(g, r, id, t);
    }
  }

  /** A listing other than the rewired socket's was already there, and still
      points back. */
  lemma RewireKeepsOtherPointsBack(g: Arena, r: Arena, id: NodeId, t: LinkType, i: int, src: Option<NodeId>, out: int,
                                   k: NodeId, u: LinkType, q: int, x: Ref)
    requires RewiredBy(g, r, id, t, i, src, out) && Consistent(g)
    requires k in g && 0 <= q < |g[k].Out(u)| && (x != Ref(id, i) || u != t)
    requires x in RefsAfter(g[id].In(t)[i].src, id, t, i, src, out, k, u, q, g[k].Out(u)[q]).refs
    ensures PointsBack(r, k, u, q, x)
  {
    assert x in g[k].Out(u)[q].refs;
    assert PointsBack(g, k, u, q, x);
    Sizes(g, r, x.node, u);
  }

  /** With the old reference looked for at the right port, `forceConnectIn`
      keeps every reverse-reference list the exact inverse of the inputs. */
  lemma ForceConnectInKeepsConsistent(g: Arena, id: NodeId, t: LinkType, i: int, src: Option<NodeId>, out: int)
    requires id in g && 0 <= i < |g[id].In(t)| && Consistent(g) && RewireFits(g, id, t, i, src, out)
    ensures Consistent(ForceConnectIn(g, id, t, i, src, out))
  {
    var r := ForceConnectIn(g, id, t, i, src, out);
    ForceConnectInRewires(g, id, t, i, src, out);
    forall k, u, j | k in r && 0 <= j < |r[k].In(u)| && r[k].In(u)[j].src.Some?
      ensures Backed(r, k, u, j)
    {
      RewireKeepsBacked(g, r, id, t, i, src, out, k, u, j);
    }
    forall k, u, q, x | k in r && 0 <= q < |r[k].Out(u)| && x in r[k].Out(u)[q].refs
      ensures PointsBack(r, k, u, q, x)
    {
      RewireKeepsPointsBack(g, r, id, t, i, src, out, k, u, q, x);
    }
  }

  /** As written, `forceConnectIn` looks for the old reverse reference at the
      NEW port: when a consistent socket moves to a different port, its old
      listing stays behind and the arena is no longer consistent. */
  lemma StaleReferenceWhenPortsDiffer(g: Arena, id: NodeId, t: LinkType, i: int, src: Option<NodeId>, out: int)
    requires id in g && 0 <= i < |g[id].In(t)| && Consistent(g)
    requires g[id].In(t)[i].src.Some? && g[id].In(t)[i].port != out
    ensures var r := ForceConnectIn(g, id, t, i, src, out);
            var o, p := g[id].In(t)[i].src.value, g[id].In(t)[i].port;
            o in r && 0 <= p < |r[o].Out(t)| && Ref(id, i) in r[o].Out(t)[p].refs && !Consistent(r)
  {
    var r := ForceConnectIn(g, id, t, i, src, out);
    var o, p := g[id].In(t)[i].src.value, g[id].In(t)[i].port;
    assert Backed(g, id, t, i);
    assert Ref(id, i) in multiset(g[o].Out(t)[p].refs);
    ForceConnectInRewires(g, id, t, i, src, out);
    Sizes(g, r, o, t);
    Sizes(g, r, id, t);
    assert r[o].Out(t)[p] == g[o].Out(t)[p];
    assert !PointsBack(r, o, t, p, Ref(id, i));
  }

  /** Edits that touch neither a live source, a port nor a reverse-reference
      list keep the invariant. */
  lemma WiringUnchanged(g: Arena, h: Arena)
    requires Reshaped(g, h) && SameOutputs(g, h) && Consistent(g)
    requires forall k, u, j :: k in g && 0 <= j < |g[k].In(u)| ==>
               0 <= j < |h[k].In(u)| && h[k].In(u)[j].src == g[k].In(u)[j].src && h[k].In(u)[j].port == g[k].In(u)[j].port
    ensures Consistent(h)
  {
    forall k, u, j | k in h && 0 <= j < |h[k].In(u)| && h[k].In(u)[j].src.Some?
      ensures Backed(h, k, u, j)
    {
      Sizes(g, h, k, u);
      assert Backed(g, k, u, j);
      Sizes(g, h, g[k].In(u)[j].src.value, u);
    }
    forall k, u, q, x | k in h && 0 <= q < |h[k].Out(u)| && x in h[k].Out(u)[q].refs
      ensures PointsBack(h, k, u, q, x)
    {
      Sizes(g, h, k, u);
      assert PointsBack(g, k, u, q, x);
      Sizes(g, h, x.node, u);
    }
  }

  /** Replacing an input socket by one with the same live source and port
      keeps the invariant. */
  lemma PutInKeepsConsistent(g: Arena, id: NodeId, t: LinkType, i: int, s: InSocket)
    requires id in g && 0 <= i < |g[id].In(t)| && Consistent(g)
    requires s.src == g[id].In(t)[i].src && s.port == g[id].In(t)[i].port
    ensures Consistent(PutIn(g, id, t, i, s))
  {
    var r := PutIn(g, id, t, i, s);
    forall k, u, j | k in g && 0 <= j < |g[k].In(u)|
      ensures 0 <= j < |r[k].In(u)| && r[k].In(u)[j].src == g[k].In(u)[j].src && r[k].In(u)[j].port == g[k].In(u)[j].port
    {
      Sizes(g, r, k, u);
    }
    WiringUnchanged(g, r);
  }

  /** Advancing a node's envelopes touches no source, port or reverse reference. */
  lemma EnvelopesKeepConsistent(g: Arena, id: NodeId)
    requires id in g && Consistent(g)
    ensures Consistent(g[id := UpdateEnvelopes(g[id])])
  {
    var h := g[id := UpdateEnvelopes(g[id])];
    assert forall k, u :: k in g ==> h[k].Out(u) == g[k].Out(u) && |h[k].In(u)| == |g[k].In(u)|;
    forall k, u, j | k in h && 0 <= j < |h[k].In(u)| && h[k].In(u)[j].src.Some?
      ensures Backed(h, k, u, j)
    {
      assert h[k].In(u)[j].src == g[k].In(u)[j].src && h[k].In(u)[j].port == g[k].In(u)[j].port;
      assert Backed(g, k, u, j);
    }
    forall k, u, q, x | k in h && 0 <= q < |h[k].Out(u)| && x in h[k].Out(u)[q].refs
      ensures PointsBack(h, k, u, q, x)
    {
      assert PointsBack(g, k, u, q, x);
      var y := x.port;
      assert h[x.node].In(u)[y].src == g[x.node].In(u)[y].src && h[x.node].In(u)[y].port == g[x.node].In(u)[y].port;
    }
  }

  // ---------------------------------------------------------------------------
  // Two-phase connection

  /** `connectIn`: record the request; if the socket's envelope is mid-ramp,
      mark it pending and fade the old source out, otherwise rewire at once.
      `finished()` also holds for an envelope that is pressed and full, so a
      settled connection playing at full level is rewired at once as well
      (`ConnectInRewiresSettledAtOnce`). A null `src` is a disconnection. */
  function ConnectIn(g: Arena, id: NodeId, t: LinkType, i: int, src: Option<NodeId>, out: int): (r: Arena)
    requires id in g && 0 <= i < |g[id].In(t)|
    ensures Reshaped(g, r) && SameInputsBut(g, r, id, t, i)
    ensures var s, s' := g[id].In(t)[i], r[id].In(t)[i];
            s'.pendingSrc == src && s'.pendingPort == out && s'.kind == s.kind
    ensures var s, s' := g[id].In(t)[i], r[id].In(t)[i];
            !Finished(s.env) ==>
              && s'.src == s.src && s'.port == s.port
              && s'.mustUpdate && s'.env == Release(s.env)
              && SameOutputs(g, r)
    ensures var s, s' := g[id].In(t)[i], r[id].In(t)[i];
            Finished(s.env) ==>
              s'.src == src && s'.port == out && !s'.mustUpdate && s'.env == Press(s.env)
  {
    var s := g[id].In(t)[i];
    var s1 := s.(pendingSrc := src, pendingPort := out);
    if !Finished(s.env) then
      PutIn(g, id, t, i, s1.(mustUpdate := true, env := Release(s.env)))
    else
      var g1 := PutIn(g, id, t, i, s1.(mustUpdate := false));
      Sizes(g, g1, id, t);
      var r := ForceConnectIn(g1, id, t, i, src, out);
      ReshapedTrans(g, g1, r);
      r
  }

  /** The declick protocol defers only sockets caught mid-ramp: an input whose
      envelope is pressed and fully open, as on a fresh node or once a
      fade-in has completed, switches source in the same call, at full level
      and with no fade-out or fade-in. */
  lemma ConnectInRewiresSettledAtOnce(g: Arena, id: NodeId, t: LinkType, i: int, src: Option<NodeId>, out: int)
    requires id in g && 0 <= i < |g[id].In(t)|
    requires g[id].In(t)[i].env.rising && g[id].In(t)[i].env.level == g[id].In(t)[i].env.span
    ensures var s, s' := g[id].In(t)[i], ConnectIn(g, id, t, i, src, out)[id].In(t)[i];
            && s'.src == src && s'.port == out && !s'.mustUpdate
            && s'.env == s.env
  {
  }

  /** When the socket's envelope has finished, `connectIn` moves the reverse
      references exactly as `forceConnectIn` to the requested pair does. */
  lemma ConnectInRewires(g: Arena, id: NodeId, t: LinkType, i: int, src: Option<NodeId>, out: int)
    requires id in g && 0 <= i < |g[id].In(t)|
    ensures Finished(g[id].In(t)[i].env) ==> RewiredBy(g, ConnectIn(g, id, t, i, src, out), id, t, i, src, out)
  {
    var s := g[id].In(t)[i];
    if Finished(s.env) {
      var g1 := PutIn(g, id, t, i, s.(pendingSrc := src, pendingPort := out, mustUpdate := false));
      Sizes(g, g1, id, t);
      ForceConnectInRewires(g1, id, t, i, src, out);
      FlaggedThenRewired(g, g1, ForceConnectIn(g1, id, t, i, src, out), id, t, i, src, out);
    }
  }

  /** Touching only a socket's bookkeeping before a rewire leaves the
      rewire's description intact. */
  lemma FlaggedThenRewired(g: Arena, g1: Arena, r: Arena, id: NodeId, t: LinkType, i: int,
                           src: Option<NodeId>, out: int)
    requires id in g && 0 <= i < |g[id].In(t)|
    requires Reshaped(g, g1) && SameOutputs(g, g1) && SameInputsBut(g, g1, id, t, i)
    requires g1[id].In(t)[i].src == g[id].In(t)[i].src
    requires RewiredBy(g1, r, id, t, i, src, out)
    ensures RewiredBy(g, r, id, t, i, src, out)
  {
    ReshapedTrans(g, g1, r);
    forall k, u, q | k in g && 0 <= q < |g[k].In(u)| && (k != id || u != t || q != i)
      ensures r[k].In(u)[q] == g[k].In(u)[q]
    {
      Sizes(g, g1, k, u);
    }
    forall k, u, q | k in g && 0 <= q < |g[k].Out(u)|
      ensures r[k].Out(u)[q] == RefsAfter(g[id].In(t)[i].src, id, t, i, src, out, k, u, q, g[k].Out(u)[q])
    {
      Sizes(g, g1, k, u);
    }
  }

  /** `connectIn` keeps the reverse-reference invariant: always when it only
      defers the request, and when it rewires at once provided the rewire fits. */
  lemma ConnectInKeepsConsistent(g: Arena, id: NodeId, t: LinkType, i: int, src: Option<NodeId>, out: int)
    requires id in g && 0 <= i < |g[id].In(t)| && Consistent(g)
    requires Finished(g[id].In(t)[i].env) ==> RewireFits(g, id, t, i, src, out)
    ensures Consistent(ConnectIn(g, id, t, i, src, out))
  {
    var s := g[id].In(t)[i];
    var s1 := s.(pendingSrc := src, pendingPort := out);
    if !Finished(s.env) {
      PutInKeepsConsistent(g, id, t, i, s1.(mustUpdate := true, env := Release(s.env)));
    } else {
      var g1 := PutIn(g, id, t, i, s1.(mustUpdate := false));
      PutInKeepsConsistent(g, id, t, i, s1.(mustUpdate := false));
      Sizes(g, g1, id, t);
      if src.Some? {
        Sizes(g, g1, src.value, t);
      }
      assert RewireFits(g1, id, t, i, src, out);
      ForceConnectInKeepsConsistent(g1, id, t, i, src, out);
    }
  }

  /** One step of `updateInSockets` on a single socket: a pending rewire whose
      fade-out has finished is applied and the flag cleared; any other socket
      is left exactly as it was. */
  ghost predicate Settled(s: InSocket, s': InSocket)
  {
    if s.mustUpdate && Finished(s.env) then
      s' == s.(src := s.pendingSrc, port := s.pendingPort, env := Press(s.env), mustUpdate := false)
    else s' == s
  }

  /** The body of `updateInSockets`' loop for socket `j` of type `t`; its
      effect on the reverse references is `SettleOneRewires`. */
  function SettleOne(g: Arena, id: NodeId, t: LinkType, j: int): (r: Arena)
    requires id in g && 0 <= j < |g[id].In(t)|
    ensures Reshaped(g, r) && SameInputsBut(g, r, id, t, j)
    ensures Settled(g[id].In(t)[j], r[id].In(t)[j])
    ensures var s := g[id].In(t)[j];
            !(s.mustUpdate && Finished(s.env)) ==> r == g
  {
    var s := g[id].In(t)[j];
    if s.mustUpdate && Finished(s.env) then
      var g1 := ForceConnectIn(g, id, t, j, s.pendingSrc, s.pendingPort);
      Sizes(g, g1, id, t);
      var g2 := PutIn(g1, id, t, j, g1[id].In(t)[j].(mustUpdate := false));
      ReshapedTrans(g, g1, g2);
      g2
    else g
  }

  /** A due rewire moves the reverse references exactly as `forceConnectIn`
      to the pending pair does; otherwise nothing in the arena changes. */
  lemma SettleOneRewires(g: Arena, id: NodeId, t: LinkType, j: int)
    requires id in g && 0 <= j < |g[id].In(t)|
    ensures var s, r := g[id].In(t)[j], SettleOne(g, id, t, j);
            s.mustUpdate && Finished(s.env) ==> RewiredBy(g, r, id, t, j, s.pendingSrc, s.pendingPort)
    ensures var s := g[id].In(t)[j];
            !(s.mustUpdate && Finished(s.env)) ==> SettleOne(g, id, t, j) == g
  {
    var s := g[id].In(t)[j];
    if s.mustUpdate && Finished(s.env) {
      var g1 := ForceConnectIn(g, id, t, j, s.pendingSrc, s.pendingPort);
      Sizes(g, g1, id, t);
      var g2 := PutIn(g1, id, t, j, g1[id].In(t)[j].(mustUpdate := false));
      ForceConnectInRewires(g, id, t, j, s.pendingSrc, s.pendingPort);
      RewiredThenFlagged(g, g1, g2, id, t, j, s.pendingSrc, s.pendingPort);
    }
  }

  /** Clearing a rewired socket's flag leaves the rewire's description intact. */
  lemma RewiredThenFlagged(g: Arena, g1: Arena, g2: Arena, id: NodeId, t: LinkType, j: int,
                           src: Option<NodeId>, out: int)
    requires RewiredBy(g, g1, id, t, j, src, out)
    requires Reshaped(g1, g2) && SameOutputs(g1, g2) && SameInputsBut(g1, g2, id, t, j)
    requires id in g2 && 0 <= j < |g2[id].In(t)| && g2[id].In(t)[j].src == src && g2[id].In(t)[j].port == out
    ensures RewiredBy(g, g2, id, t, j, src, out)
  {
    ReshapedTrans(g, g1, g2);
    forall k, u, q | k in g && 0 <= q < |g[k].In(u)| && (k != id || u != t || q != j)
      ensures g2[k].In(u)[q] == g[k].In(u)[q]
    {
      Sizes(g, g1, k, u);
    }
    forall k, u, q | k in g && 0 <= q < |g[k].Out(u)|
      ensures g2[k].Out(u)[q] == g1[k].Out(u)[q]
    {
      Sizes(g, g1, k, u);
    }
  }

  /** The rewire pending on socket `j` of type `t` fits, if it is due. */
  ghost predicate PendingFit(g: Arena, id: NodeId, t: LinkType, j: int)
    requires id in g && 0 <= j < |g[id].In(t)|
  {
    var s := g[id].In(t)[j];
    s.mustUpdate && Finished(s.env) ==> RewireFits(g, id, t, j, s.pendingSrc, s.pendingPort)
  }

  /** Every due rewire on node `id` fits. */
  ghost predicate PendingFits(g: Arena, id: NodeId)
    requires id in g
  {
    forall u, j :: 0 <= j < |g[id].In(u)| ==> PendingFit(g, id, u, j)
  }

  /** A settle step keeps the reverse-reference invariant when its rewire, if
      due, fits. */
  lemma SettleOneKeepsConsistent(g: Arena, id: NodeId, t: LinkType, j: int)
    requires id in g && 0 <= j < |g[id].In(t)| && Consistent(g) && PendingFit(g, id, t, j)
    ensures Consistent(SettleOne(g, id, t, j))
  {
    var s := g[id].In(t)[j];
    if s.mustUpdate && Finished(s.env) {
      var g1 := ForceConnectIn(g, id, t, j, s.pendingSrc, s.pendingPort);
      ForceConnectInKeepsConsistent(g, id, t, j, s.pendingSrc, s.pendingPort);
      Sizes(g, g1, id, t);
      PutInKeepsConsistent(g1, id, t, j, g1[id].In(t)[j].(mustUpdate := false));
    }
  }

  /** A settle step leaves the other sockets' pending rewires fitting. */
  lemma SettleOneKeepsFit(g: Arena, id: NodeId, t: LinkType, j: int, u: LinkType, q: int)
    requires id in g && 0 <= j < |g[id].In(t)| && 0 <= q < |g[id].In(u)| && (u != t || q != j)
    requires PendingFit(g, id, u, q)
    ensures var r := SettleOne(g, id, t, j);
            0 <= q < |r[id].In(u)| && PendingFit(r, id, u, q)
  {
    var r := SettleOne(g, id, t, j);
    Sizes(g, r, id, u);
    var s := g[id].In(u)[q];
    if s.pendingSrc.Some? && s.pendingSrc.value in g {
      Sizes(g, r, s.pendingSrc.value, u);
    }
  }

  /** Every due rewire among sockets `j ..` of type `t` fits. */
  ghost predicate FitsFrom(g: Arena, id: NodeId, t: LinkType, j: nat)
    requires id in g
  {
    forall q :: j <= q < |g[id].In(t)| ==> PendingFit(g, id, t, q)
  }

  /** A settle step leaves the later sockets' pending rewires fitting. */
  lemma SettleOneKeepsLaterFits(g: Arena, id: NodeId, t: LinkType, j: nat)
    requires id in g && j < |g[id].In(t)| && FitsFrom(g, id, t, j)
    ensures var r := SettleOne(g, id, t, j);
            id in r && FitsFrom(r, id, t, j + 1)
  {
    var r := SettleOne(g, id, t, j);
    Sizes(g, r, id, t);
    forall q | j < q < |r[id].In(t)|
      ensures PendingFit(r, id, t, q)
    {
      SettleOneKeepsFit(g, id, t, j, t, q);
    }
  }

  /** Settling sockets `j ..` of type `t` keeps the invariant when every due
      rewire among them fits. */
  lemma {:induction false} SettleFromKeepsConsistent(g: Arena, id: NodeId, t: LinkType, j: nat)
    requires id in g && j <= |g[id].In(t)| && Consistent(g) && FitsFrom(g, id, t, j)
    ensures Consistent(SettleFrom(g, id, t, j))
    decreases |g[id].In(t)| - j
  {
    if j < |g[id].In(t)| {
      var g1 := SettleOne(g, id, t, j);
      Sizes(g, g1, id, t);
      SettleFromStep(g, id, t, j);
      SettleOneKeepsConsistent(g, id, t, j);
      SettleOneKeepsLaterFits(g, id, t, j);
      SettleFromKeepsConsistent(g1, id, t, j + 1);
      assert SettleFrom(g, id, t, j) == SettleFrom(g1, id, t, j + 1);
    } else {
      assert SettleFrom(g, id, t, j) == g;
    }
  }

  lemma SettleFromStep(g: Arena, id: NodeId, t: LinkType, j: nat)
    requires id in g && j < |g[id].In(t)|
    ensures var g1 := SettleOne(g, id, t, j);
            id in g1 && j + 1 <= |g1[id].In(t)| && SettleFrom(g, id, t, j) == SettleFrom(g1, id, t, j + 1)
  {
  }

  /** Settling one type of socket leaves the other type's pending rewires fitting. */
  lemma SettleFromKeepsFit(g: Arena, id: NodeId, t: LinkType, q: int)
    requires id in g && 0 <= q < |g[id].In(Other(t))| && PendingFit(g, id, Other(t), q)
    ensures var r := SettleFrom(g, id, t, 0);
            0 <= q < |r[id].In(Other(t))| && PendingFit(r, id, Other(t), q)
  {
    var r := SettleFrom(g, id, t, 0);
    var s := g[id].In(Other(t))[q];
    if s.pendingSrc.Some? && s.pendingSrc.value in g {
      Sizes(g, r, s.pendingSrc.value, Other(t));
    }
  }

  /** `updateInSockets` keeps the reverse-reference invariant when every due
      rewire fits. */
  lemma UpdateInSocketsKeepsConsistent(g: Arena, id: NodeId)
    requires id in g && Consistent(g) && PendingFits(g, id)
    ensures Consistent(UpdateInSockets(g, id))
  {
    var a := SettleFrom(g, id, Audio, 0);
    SettleFromKeepsConsistent(g, id, Audio, 0);
    Sizes(g, a, id, Control);
    forall q | 0 <= q < |a[id].In(Control)|
      ensures PendingFit(a, id, Control, q)
    {
      SettleFromKeepsFit(g, id, Audio, q);
    }
    SettleFromKeepsConsistent(a, id, Control, 0);
  }

  /** `updateInSockets` from socket `j` of type `t` onwards. */
  function SettleFrom(g: Arena, id: NodeId, t: LinkType, j: nat): (r: Arena)
    requires id in g && j <= |g[id].In(t)|
    ensures Reshaped(g, r) && r[id].In(Other(t)) == g[id].In(Other(t))
    ensures forall k, u, q :: k in g && k != id && 0 <= q < |g[k].In(u)| ==> r[k].In(u)[q] == g[k].In(u)[q]
    ensures forall q :: 0 <= q < j ==> r[id].In(t)[q] == g[id].In(t)[q]
    ensures forall q :: j <= q < |g[id].In(t)| ==> Settled(g[id].In(t)[q], r[id].In(t)[q])
    decreases |g[id].In(t)| - j
  {
    if j == |g[id].In(t)| then g
    else
      var g1 := SettleOne(g, id, t, j);
      Sizes(g, g1, id, t);
      Sizes(g, g1, id, Other(t));
      var r := SettleFrom(g1, id, t, j + 1);
      ReshapedTrans(g, g1, r);
      r
  }

  /** `updateInSockets`: settle every audio, then every control input socket. */
  function UpdateInSockets(g: Arena, id: NodeId): (r: Arena)
    requires id in g
    ensures Reshaped(g, r)
    ensures forall k, u, q :: k in g && k != id && 0 <= q < |g[k].In(u)| ==> r[k].In(u)[q] == g[k].In(u)[q]
    ensures forall u, q :: 0 <= q < |g[id].In(u)| ==> Settled(g[id].In(u)[q], r[id].In(u)[q])
  {
    var a := SettleFrom(g, id, Audio, 0);
    Sizes(g, a, id, Control);
    var r := SettleFrom(a, id, Control, 0);
    ReshapedTrans(g, a, r);
    assert forall u: LinkType :: u.Audio? || u.Control?;
    r
  }

  // ---------------------------------------------------------------------------
  // Clearing connections

  /** An input socket that a clearing pass either left alone or nulled. */
  ghost predicate ClearedOrKept(s: InSocket, s': InSocket)
  {
    s' == s || s' == Set(s, None, 0)
  }

  /** One iteration of `clearReferences`' loop: consumer `x`'s input socket
      of type `t` is `set(NULL, 0)`. */
  function NullConsumer(g: Arena, t: LinkType, x: Ref): (r: Arena)
    ensures Reshaped(g, r) && SameOutputs(g, r)
    ensures forall k, q :: k in g && 0 <= q < |g[k].In(t)| ==>
              0 <= q < |r[k].In(t)| &&
              r[k].In(t)[q] == if x == Ref(k, q) then Set(g[k].In(t)[q], None, 0) else g[k].In(t)[q]
    ensures forall k :: k in g ==> r[k].In(Other(t)) == g[k].In(Other(t))
  {
    if x.node in g && 0 <= x.port < |g[x.node].In(t)| then
      var r := PutIn(g, x.node, t, x.port, Set(g[x.node].In(t)[x.port], None, 0));
      forall k | k in g ensures |r[k].In(t)| == |g[k].In(t)| && r[k].In(Other(t)) == g[k].In(Other(t)) {
        Sizes(g, r, k, t);
        Sizes(g, r, k, Other(t));
      }
      r
    else g
  }

  /** `clearReferences`' loop over the list `refs`. */
  function NullConsumers(g: Arena, t: LinkType, refs: seq<Ref>): (r: Arena)
    ensures Reshaped(g, r) && SameOutputs(g, r)
    ensures forall k, q :: k in g && 0 <= q < |g[k].In(t)| ==>
              0 <= q < |r[k].In(t)| &&
              r[k].In(t)[q] == if Ref(k, q) in refs then Set(g[k].In(t)[q], None, 0) else g[k].In(t)[q]
    ensures forall k :: k in g ==> r[k].In(Other(t)) == g[k].In(Other(t))
    decreases |refs|
  {
    if |refs| == 0 then g
    else
      var g1 := NullConsumer(g, t, refs[0]);
      var r := NullConsumers(g1, t, refs[1..]);
      ReshapedTrans(g, g1, r);
      assert refs == [refs[0]] + refs[1..];
      r
  }

  /** `OutSocket::clearReferences` on output `p` of type `t` of node `id`:
      every consumer it lists now reads from nothing at port 0, but the list
      itself is kept. */
  function ClearReferences(g: Arena, id: NodeId, t: LinkType, p: int): (r: Arena)
    requires id in g && 0 <= p < |g[id].Out(t)|
    ensures Reshaped(g, r) && SameOutputs(g, r) && r[id].Out(t)[p] == g[id].Out(t)[p]
    ensures forall x :: x in g[id].Out(t)[p].refs && x.node in g && 0 <= x.port < |g[x.node].In(t)| ==>
              0 <= x.port < |r[x.node].In(t)| &&
              r[x.node].In(t)[x.port].src == None && r[x.node].In(t)[x.port].port == 0
    ensures forall k, q :: k in g && 0 <= q < |g[k].In(t)| ==>
              0 <= q < |r[k].In(t)| &&
              r[k].In(t)[q] == if Ref(k, q) in g[id].Out(t)[p].refs then Set(g[k].In(t)[q], None, 0) else g[k].In(t)[q]
    ensures forall k, q :: k in g && 0 <= q < |g[k].In(t)| ==> ClearedOrKept(g[k].In(t)[q], r[k].In(t)[q])
    ensures forall k :: k in g ==> r[k].In(Other(t)) == g[k].In(Other(t))
  {
    NullConsumers(g, t, g[id].Out(t)[p].refs)
  }

  /** What `clearConnections` promises about one of the node's own inputs:
      it reads from nothing, or a disconnection is pending behind a fade-out. */
  ghost predicate Disconnecting(s: InSocket)
  {
    s.src.None? || (s.mustUpdate && s.pendingSrc.None? && !s.env.rising)
  }

  /** First loop of `clearConnections`, from input `j` of type `t`: every
      non-empty input goes through `connectIn(NULL, 0)`. */
  function DisconnectFrom(g: Arena, id: NodeId, t: LinkType, j: nat): (r: Arena)
    requires id in g && j <= |g[id].In(t)|
    ensures Reshaped(g, r) && r[id].In(Other(t)) == g[id].In(Other(t))
    ensures forall k, u, q :: k in g && k != id && 0 <= q < |g[k].In(u)| ==> r[k].In(u)[q] == g[k].In(u)[q]
    ensures forall q :: 0 <= q < j ==> r[id].In(t)[q] == g[id].In(t)[q]
    ensures forall q :: j <= q < |g[id].In(t)| ==> Disconnecting(r[id].In(t)[q])
    decreases |g[id].In(t)| - j
  {
    if j == |g[id].In(t)| then g
    else
      var g1 := DisconnectOne(g, id, t, j);
      Sizes(g, g1, id, t);
      Sizes(g, g1, id, Other(t));
      var r := DisconnectFrom(g1, id, t, j + 1);
      ReshapedTrans(g, g1, r);
      r
  }

  /** One iteration of the first loop of `clearConnections`: a non-empty
      input goes through `connectIn(NULL, 0)`. */
  function DisconnectOne(g: Arena, id: NodeId, t: LinkType, j: int): (r: Arena)
    requires id in g && 0 <= j < |g[id].In(t)|
    ensures Reshaped(g, r) && SameInputsBut(g, r, id, t, j)
    ensures Disconnecting(r[id].In(t)[j])
  {
    if g[id].In(t)[j].src.Some? then ConnectIn(g, id, t, j, None, 0) else g
  }

  /** One iteration of `clearConnections`' second loop. */
  function ClearOutOne(g: Arena, id: NodeId, t: LinkType, p: int): (r: Arena)
    requires id in g && 0 <= p < |g[id].Out(t)|
    ensures Reshaped(g, r) && SameOutputs(g, r)
    ensures forall k, q :: k in g && 0 <= q < |g[k].In(t)| ==>
              0 <= q < |r[k].In(t)| && ClearedOrKept(g[k].In(t)[q], r[k].In(t)[q])
    ensures forall k :: k in g ==> r[k].In(Other(t)) == g[k].In(Other(t))
    ensures forall x :: (x in g[id].Out(t)[p].refs && x.node in g && 0 <= x.port < |g[x.node].In(t)|) ==>
              0 <= x.port < |r[x.node].In(t)| && r[x.node].In(t)[x.port].src == None
  {
    if |g[id].Out(t)[p].refs| > 0 then
      var r := ClearReferences(g, id, t, p);
      forall k | k in g ensures |r[k].In(t)| == |g[k].In(t)| { Sizes(g, r, k, t); }
      r
    else g
  }

  /** Second loop of `clearConnections`, from output `p` of type `t`: every
      output with consumers has its references cleared. */
  function ClearOutFrom(g: Arena, id: NodeId, t: LinkType, p: nat): (r: Arena)
    requires id in g && p <= |g[id].Out(t)|
    ensures Reshaped(g, r) && SameOutputs(g, r)
    ensures forall k, q :: k in g && 0 <= q < |g[k].In(t)| ==>
              0 <= q < |r[k].In(t)| && ClearedOrKept(g[k].In(t)[q], r[k].In(t)[q])
    ensures forall k :: k in g ==> r[k].In(Other(t)) == g[k].In(Other(t))
    ensures forall q, x :: (p <= q < |g[id].Out(t)| && x in g[id].Out(t)[q].refs &&
                           x.node in g && 0 <= x.port < |g[x.node].In(t)|) ==>
              0 <= x.port < |r[x.node].In(t)| && r[x.node].In(t)[x.port].src == None
    decreases |g[id].Out(t)| - p
  {
    Sizes(g, g, id, t);
    if p == |g[id].Out(t)| then g
    else
      var g1 := ClearOutOne(g, id, t, p);
      Sizes(g, g1, id, t);
      var r := ClearOutFrom(g1, id, t, p + 1);
      ReshapedTrans(g, g1, r);
      ClearOutCompose(g, g1, r, id, t, p);
      r
  }

  lemma ClearOutCompose(g: Arena, g1: Arena, r: Arena, id: NodeId, t: LinkType, p: nat)
    requires id in g && p < |g[id].Out(t)|
    requires Reshaped(g, g1) && SameOutputs(g, g1) && Reshaped(g1, r) && SameOutputs(g1, r)
    requires forall k, q :: k in g && 0 <= q < |g[k].In(t)| ==>
               0 <= q < |g1[k].In(t)| && ClearedOrKept(g[k].In(t)[q], g1[k].In(t)[q])
    requires forall k, q :: k in g1 && 0 <= q < |g1[k].In(t)| ==>
               0 <= q < |r[k].In(t)| && ClearedOrKept(g1[k].In(t)[q], r[k].In(t)[q])
    requires forall x :: (x in g[id].Out(t)[p].refs && x.node in g && 0 <= x.port < |g[x.node].In(t)|) ==>
               0 <= x.port < |g1[x.node].In(t)| && g1[x.node].In(t)[x.port].src == None
    requires forall q, x :: (p + 1 <= q < |g1[id].Out(t)| && x in g1[id].Out(t)[q].refs &&
                            x.node in g1 && 0 <= x.port < |g1[x.node].In(t)|) ==>
               0 <= x.port < |r[x.node].In(t)| && r[x.node].In(t)[x.port].src == None
    ensures forall k, q :: k in g && 0 <= q < |g[k].In(t)| ==>
              0 <= q < |r[k].In(t)| && ClearedOrKept(g[k].In(t)[q], r[k].In(t)[q])
    ensures forall q, x :: (p <= q < |g[id].Out(t)| && x in g[id].Out(t)[q].refs &&
                           x.node in g && 0 <= x.port < |g[x.node].In(t)|) ==>
              0 <= x.port < |r[x.node].In(t)| && r[x.node].In(t)[x.port].src == None
  {
    forall q, x | p <= q < |g[id].Out(t)| && x in g[id].Out(t)[q].refs &&
                  x.node in g && 0 <= x.port < |g[x.node].In(t)|
      ensures 0 <= x.port < |r[x.node].In(t)| && r[x.node].In(t)[x.port].src == None
    {
      Sizes(g, g1, id, t);
      if q > p {
        assert g1[id].Out(t)[q] == g[id].Out(t)[q];
      } else {
        assert g1[x.node].In(t)[x.port].src == None;
      }
    }
  }

  /** `clearConnections`: afterwards each of the node's inputs reads from
      nothing or is fading out towards a disconnection, and every consumer its
      outputs list reads from nothing. */
  function ClearConnections(g: Arena, id: NodeId): (r: Arena)
    requires id in g
    ensures Reshaped(g, r)
    ensures forall u, q :: 0 <= q < |r[id].In(u)| ==> Disconnecting(r[id].In(u)[q])
    ensures forall u, p, x :: (0 <= p < |r[id].Out(u)| && x in r[id].Out(u)[p].refs &&
                              x.node in r && 0 <= x.port < |r[x.node].In(u)|) ==>
              r[x.node].In(u)[x.port].src == None
  {
    var g2 := DisconnectInputs(g, id);
    var r := ClearOutputs(g2, id);
    ReshapedTrans(g, g2, r);
    r
  }

  /** The first loop of `clearConnections`, over both link types. */
  function DisconnectInputs(g: Arena, id: NodeId): (r: Arena)
    requires id in g
    ensures Reshaped(g, r)
    ensures forall u, q :: 0 <= q < |r[id].In(u)| ==> Disconnecting(r[id].In(u)[q])
    ensures forall k, u, q :: k in g && k != id && 0 <= q < |g[k].In(u)| ==>
              0 <= q < |r[k].In(u)| && r[k].In(u)[q] == g[k].In(u)[q]
  {
    var g1 := DisconnectFrom(g, id, Audio, 0);
    Sizes(g, g1, id, Control);
    var r := DisconnectFrom(g1, id, Control, 0);
    ReshapedTrans(g, g1, r);
    assert forall u: LinkType :: u.Audio? || u.Control?;
    r
  }

  /** The second loop of `clearConnections`, over both link types: it keeps
      the node's own inputs disconnected or disconnecting. */
  function ClearOutputs(g2: Arena, id: NodeId): (r: Arena)
    requires id in g2
    requires forall u, q :: 0 <= q < |g2[id].In(u)| ==> Disconnecting(g2[id].In(u)[q])
    ensures Reshaped(g2, r) && SameOutputs(g2, r)
    ensures forall u, q :: 0 <= q < |r[id].In(u)| ==> Disconnecting(r[id].In(u)[q])
    ensures forall u, p, x :: (0 <= p < |r[id].Out(u)| && x in r[id].Out(u)[p].refs &&
                              x.node in r && 0 <= x.port < |r[x.node].In(u)|) ==>
              r[x.node].In(u)[x.port].src == None
    ensures forall k, u, q :: k in g2 && 0 <= q < |g2[k].In(u)| ==>
              0 <= q < |r[k].In(u)| && ClearedOrKept(g2[k].In(u)[q], r[k].In(u)[q])
  {
    var g3 := ClearOutFrom(g2, id, Audio, 0);
    Sizes(g2, g3, id, Control);
    var r := ClearOutFrom(g3, id, Control, 0);
    ReshapedTrans(g2, g3, r);
    ClearingKeepsDisconnecting(g2, g3, r, id);
    ClearingNullsConsumers(g2, g3, r, id);
    ClearingClearsOrKeeps(g2, g3, r);
    r
  }

  lemma ClearingClearsOrKeeps(g2: Arena, g3: Arena, r: Arena)
    requires Reshaped(g2, g3) && Reshaped(g3, r)
    requires forall k, q :: k in g2 && 0 <= q < |g2[k].In(Audio)| ==>
               0 <= q < |g3[k].In(Audio)| && ClearedOrKept(g2[k].In(Audio)[q], g3[k].In(Audio)[q])
    requires forall k :: k in g2 ==> g3[k].In(Control) == g2[k].In(Control)
    requires forall k, q :: k in g3 && 0 <= q < |g3[k].In(Control)| ==>
               0 <= q < |r[k].In(Control)| && ClearedOrKept(g3[k].In(Control)[q], r[k].In(Control)[q])
    requires forall k :: k in g3 ==> r[k].In(Audio) == g3[k].In(Audio)
    ensures forall k, u, q :: k in g2 && 0 <= q < |g2[k].In(u)| ==>
              0 <= q < |r[k].In(u)| && ClearedOrKept(g2[k].In(u)[q], r[k].In(u)[q])
  {
    forall k, u, q | k in g2 && 0 <= q < |g2[k].In(u)|
      ensures 0 <= q < |r[k].In(u)| && ClearedOrKept(g2[k].In(u)[q], r[k].In(u)[q])
    {
      Sizes(g2, g3, k, u);
      match u
      case Audio =>
      case Control =>
    }
  }

  /** Every consumer that output lists of node `id` in `g` name, other than
      `id` itself, is still listed at the same output in `h`. */
  ghost predicate KeepsListings(g: Arena, h: Arena, id: NodeId)
  {
    && id in g && id in h
    && forall u, p, x :: Listed(g, id, u, p, x) && x.node != id ==> Listed(h, id, u, p, x)
  }

  /** Disconnecting one of the node's own inputs drops from the reference
      lists only that input's own listing. */
  lemma DisconnectOneKeepsListings(g: Arena, id: NodeId, t: LinkType, j: int)
    requires id in g && 0 <= j < |g[id].In(t)|
    ensures KeepsListings(g, DisconnectOne(g, id, t, j), id)
  {
    if g[id].In(t)[j].src.Some? {
      var r := ConnectIn(g, id, t, j, None, 0);
      if Finished(g[id].In(t)[j].env) {
        ConnectInRewires(g, id, t, j, None, 0);
        NullRewireKeepsListings(g, r, id, t, j);
      } else {
        assert SameOutputs(g, r);
      }
    }
  }

  /** A rewire to nothing drops from the reference lists only the rewired
      input's own listing. */
  lemma NullRewireKeepsListings(g: Arena, r: Arena, id: NodeId, t: LinkType, j: int)
    requires RewiredBy(g, r, id, t, j, None, 0)
    ensures KeepsListings(g, r, id)
  {
    forall u, p, x | Listed(g, id, u, p, x) && x.node != id
      ensures Listed(r, id, u, p, x)
    {
      Sizes(g, r, id, u);
      assert x != Ref(id, j);
    }
  }

  /** Output `p` of type `u` on node `id` lists consumer `x`. */
  predicate Listed(h: Arena, id: NodeId, u: LinkType, p: int, x: Ref)
  {
    id in h && 0 <= p < |h[id].Out(u)| && x in h[id].Out(u)[p].refs
  }

  lemma {:induction false} DisconnectFromKeepsListed(g: Arena, id: NodeId, t: LinkType, j: nat,
                                                     u: LinkType, p: int, x: Ref)
    requires id in g && j <= |g[id].In(t)| && Listed(g, id, u, p, x) && x.node != id
    ensures Listed(DisconnectFrom(g, id, t, j), id, u, p, x)
    decreases |g[id].In(t)| - j
  {
    if j < |g[id].In(t)| {
      var g1 := DisconnectOne(g, id, t, j);
      DisconnectFromStep(g, id, t, j, u, p, x);
      DisconnectFromKeepsListed(g1, id, t, j + 1, u, p, x);
    }
  }

  /** One step of `DisconnectFromKeepsListed`: the first disconnection keeps
      the listing, and the rest of the loop starts from its result. */
  lemma DisconnectFromStep(g: Arena, id: NodeId, t: LinkType, j: nat, u: LinkType, p: int, x: Ref)
    requires id in g && j < |g[id].In(t)| && Listed(g, id, u, p, x) && x.node != id
    ensures var g1 := DisconnectOne(g, id, t, j);
            && id in g1 && j + 1 <= |g1[id].In(t)| && Listed(g1, id, u, p, x)
            && DisconnectFrom(g, id, t, j) == DisconnectFrom(g1, id, t, j + 1)
  {
    Sizes(g, DisconnectOne(g, id, t, j), id, t);
    DisconnectOneKeepsListings(g, id, t, j);
  }

  /** The first loop of `clearConnections` keeps every other node listed
      where it was. */
  lemma DisconnectInputsKeepsListings(g: Arena, id: NodeId)
    requires id in g
    ensures KeepsListings(g, DisconnectInputs(g, id), id)
  {
    var g1 := DisconnectFrom(g, id, Audio, 0);
    Sizes(g, g1, id, Control);
    forall u, p, x | Listed(g, id, u, p, x) && x.node != id
      ensures Listed(DisconnectInputs(g, id), id, u, p, x)
    {
      DisconnectFromKeepsListed(g, id, Audio, 0, u, p, x);
      DisconnectFromKeepsListed(g1, id, Control, 0, u, p, x);
    }
  }

  /** With the reverse references consistent, `clearConnections` leaves no
      other node reading from the cleared one: whoever read from it was listed
      by it, and every listed consumer is nulled. */
  lemma ClearConnectionsDetachesReaders(g: Arena, id: NodeId)
    requires id in g && Consistent(g)
    ensures var r := ClearConnections(g, id);
            forall k, u, q :: k in r && k != id && 0 <= q < |r[k].In(u)| ==> r[k].In(u)[q].src != Some(id)
  {
    var r := ClearConnections(g, id);
    forall k, u, q | k in r && k != id && 0 <= q < |r[k].In(u)|
      ensures r[k].In(u)[q].src != Some(id)
    {
      Sizes(g, r, k, u);
      ReaderDetached(g, id, k, u, q);
    }
  }

  /** One reader of the cleared node, as `ClearConnectionsDetachesReaders`
      states for all of them. */
  lemma ReaderDetached(g: Arena, id: NodeId, k: NodeId, u: LinkType, q: int)
    requires id in g && Consistent(g)
    requires k in g && k != id && 0 <= q < |g[k].In(u)|
    ensures var r := ClearConnections(g, id);
            k in r && 0 <= q < |r[k].In(u)| && r[k].In(u)[q].src != Some(id)
  {
    var g2 := DisconnectInputs(g, id);
    assert ClearConnections(g, id) == ClearOutputs(g2, id);
    DisconnectInputsKeepsListings(g, id);
    Sizes(g, g2, k, u);
    var s := g[k].In(u)[q];
    assert g2[k].In(u)[q] == s;
    if s.src == Some(id) {
      assert Backed(g, k, u, q);
      assert Listed(g, id, u, s.port, Ref(k, q));
    }
    ListedReaderDetached(g2, id, k, u, q);
  }

  /** The second loop of `clearConnections` detaches every reader of the node
      that its output lists name. */
  lemma ListedReaderDetached(g2: Arena, id: NodeId, k: NodeId, u: LinkType, q: int)
    requires id in g2 && forall u, q :: 0 <= q < |g2[id].In(u)| ==> Disconnecting(g2[id].In(u)[q])
    requires k in g2 && k != id && 0 <= q < |g2[k].In(u)|
    requires g2[k].In(u)[q].src == Some(id) ==> Listed(g2, id, u, g2[k].In(u)[q].port, Ref(k, q))
    ensures var r := ClearOutputs(g2, id);
            k in r && 0 <= q < |r[k].In(u)| && r[k].In(u)[q].src != Some(id)
  {
    var r := ClearOutputs(g2, id);
    var s := g2[k].In(u)[q];
    if s.src == Some(id) {
      assert r[id].Out(u) == g2[id].Out(u);
      var x := Ref(k, q);
      assert 0 <= s.port < |r[id].Out(u)| && x in r[id].Out(u)[s.port].refs;
      assert x.node in r && 0 <= x.port < |r[x.node].In(u)|;
    } else {
      assert ClearedOrKept(s, r[k].In(u)[q]);
      assert Set(s, None, 0).src == None;
    }
  }

  lemma ClearingKeepsDisconnecting(g2: Arena, g3: Arena, r: Arena, id: NodeId)
    requires id in g2 && Reshaped(g2, g3) && Reshaped(g3, r)
    requires forall u, q :: 0 <= q < |g2[id].In(u)| ==> Disconnecting(g2[id].In(u)[q])
    requires forall k, q :: k in g2 && 0 <= q < |g2[k].In(Audio)| ==> ClearedOrKept(g2[k].In(Audio)[q], g3[k].In(Audio)[q])
    requires forall k :: k in g2 ==> g3[k].In(Control) == g2[k].In(Control)
    requires forall k, q :: k in g3 && 0 <= q < |g3[k].In(Control)| ==> ClearedOrKept(g3[k].In(Control)[q], r[k].In(Control)[q])
    requires forall k :: k in g3 ==> r[k].In(Audio) == g3[k].In(Audio)
    ensures forall u, q :: 0 <= q < |r[id].In(u)| ==> Disconnecting(r[id].In(u)[q])
  {
    forall u, q | 0 <= q < |r[id].In(u)|
      ensures Disconnecting(r[id].In(u)[q])
    {
      Sizes(g2, g3, id, u);
      Sizes(g3, r, id, u);
      assert Disconnecting(g2[id].In(u)[q]);
    }
  }

  lemma ClearingNullsConsumers(g2: Arena, g3: Arena, r: Arena, id: NodeId)
    requires id in g2 && Reshaped(g2, g3) && Reshaped(g3, r) && SameOutputs(g2, g3) && SameOutputs(g3, r)
    requires forall k :: k in g2 ==> g3[k].In(Control) == g2[k].In(Control)
    requires forall k :: k in g3 ==> r[k].In(Audio) == g3[k].In(Audio)
    requires forall q, x :: (0 <= q < |g2[id].Out(Audio)| && x in g2[id].Out(Audio)[q].refs &&
                            x.node in g2 && 0 <= x.port < |g2[x.node].In(Audio)|) ==>
               0 <= x.port < |g3[x.node].In(Audio)| && g3[x.node].In(Audio)[x.port].src == None
    requires forall q, x :: (0 <= q < |g3[id].Out(Control)| && x in g3[id].Out(Control)[q].refs &&
                            x.node in g3 && 0 <= x.port < |g3[x.node].In(Control)|) ==>
               0 <= x.port < |r[x.node].In(Control)| && r[x.node].In(Control)[x.port].src == None
    ensures forall u, p, x :: (0 <= p < |r[id].Out(u)| && x in r[id].Out(u)[p].refs &&
                              x.node in r && 0 <= x.port < |r[x.node].In(u)|) ==>
              r[x.node].In(u)[x.port].src == None
  {
    forall u, p, x | 0 <= p < |r[id].Out(u)| && x in r[id].Out(u)[p].refs &&
                     x.node in r && 0 <= x.port < |r[x.node].In(u)|
      ensures r[x.node].In(u)[x.port].src == None
    {
      Sizes(g2, g3, x.node, u);
      Sizes(g3, r, x.node, u);
      Sizes(g2, g3, id, u);
      Sizes(g3, r, id, u);
      match u
      case Audio =>
      case Control =>
    }
  }

  // ---------------------------------------------------------------------------
  // Reading inputs

  /** `getInput` (through `InSocket::getData`): an input with no source reads
      as nothing; otherwise it reads whatever its source's `getOutput` hands
      out at the stored port, which is nothing while the source is muted. */
  function GetInput(g: Arena, id: NodeId, t: LinkType, i: int): (r: Option<Data>)
    requires id in g && 0 <= i < |g[id].In(t)|
    requires var s := g[id].In(t)[i];
             s.src.Some? ==>
               && s.src.value in g
               && (g[s.src.value].mute == 0 && t == Audio ==> 0 <= s.port < |g[s.src.value].audioData|)
               && (g[s.src.value].mute == 0 && t == Control ==> 0 <= s.port < |g[s.src.value].controlData|)
    ensures var s := g[id].In(t)[i];
            r.None? <==> s.src.None? || g[s.src.value].mute != 0
    ensures var s := g[id].In(t)[i];
            r.Some? ==> r.value == match t
                                   case Audio => AudioData(g[s.src.value].audioData[s.port])
                                   case Control => ControlData(g[s.src.value].controlData[s.port])
  {
    var s := g[id].In(t)[i];
    if s.src.None? then None
    else GetOutput(g[s.src.value], Code(t), s.port)
  }
}

=== FILE: nodes.dfy ===
/** One vertex of the signal-flow graph (`Object`): its sockets, parameters,
    mute envelope, output buffers and the per-block bookkeeping that decides
    whether a pull recomputes it. Everything here concerns a single node; the
    operations that reach into other nodes live in module Graph. */
module Nodes {
  import opened Base
  import opened Envelope
  import opened Sockets

  /** The audio configuration (`AudioInfo`) a node was built for. */
  datatype Info = Info(sampleRate: nat, blockSize: nat, numChannels: nat)

  /** A pull already served in this block: the pulling node and its input port. */
  datatype Visit = Visit(caller: NodeId, port: int)

  datatype ParamType = Vector2F | Float | Int

  /** A named parameter and the index it was registered under. Values are
      not modelled, except the mute flag, which the node keeps in `mute`. */
  datatype Param = Param(index: nat, name: string, kind: ParamType)

  /** What an output socket hands to a reader. */
  datatype Data = AudioData(audio: AudioBuffer) | ControlData(control: ControlBuffer)

  /** `CommonParams`: every node registers these three first. */
  const PARAM_POSITION: nat := 0
  const PARAM_RADIOUS: nat := 1
  const PARAM_MUTE: nat := 2
  const N_COMMON_PARAMS: nat := 3

  function Other(t: LinkType): LinkType
  {
    match t
    case Audio => Control
    case Control => Audio
  }

  datatype Node = Node(
    kind: int,
    info: Info,
    singleUpdate: bool,
    updated: bool,
    visitedAudio: set<Visit>,
    visitedControl: set<Visit>,
    mute: int,
    params: seq<Param>,
    inAudio: seq<InSocket>,
    inControl: seq<InSocket>,
    outAudio: seq<OutSocket>,
    outControl: seq<OutSocket>,
    outEnv: Env,
    audioData: seq<AudioBuffer>,
    controlData: seq<ControlBuffer>)
  {
    function In(t: LinkType): seq<InSocket>
    {
      match t
      case Audio => inAudio
      case Control => inControl
    }

    function Out(t: LinkType): seq<OutSocket>
    {
      match t
      case Audio => outAudio
      case Control => outControl
    }

    function Visited(t: LinkType): set<Visit>
    {
      match t
      case Audio => visitedAudio
      case Control => visitedControl
    }

    function WithIn(t: LinkType, s: seq<InSocket>): Node
    {
      match t
      case Audio => this.(inAudio := s)
      case Control => this.(inControl := s)
    }

    function WithOut(t: LinkType, s: seq<OutSocket>): Node
    {
      match t
      case Audio => this.(outAudio := s)
      case Control => this.(outControl := s)
    }

    function WithVisited(t: LinkType, v: set<Visit>): Node
    {
      match t
      case Audio => this.(visitedAudio := v)
      case Control => this.(visitedControl := v)
    }
  }

  /** The node with input socket `i` of type `t` replaced. */
  function SetIn(n: Node, t: LinkType, i: int, s: InSocket): (r: Node)
    requires 0 <= i < |n.In(t)|
    ensures r.In(t) == n.In(t)[i := s] && r.In(Other(t)) == n.In(Other(t))
    ensures r == n.WithIn(t, r.In(t))
  {
    n.WithIn(t, n.In(t)[i := s])
  }

  /** The node with output socket `p` of type `t` replaced. */
  function SetOut(n: Node, t: LinkType, p: int, o: OutSocket): (r: Node)
    requires 0 <= p < |n.Out(t)|
    ensures r.Out(t) == n.Out(t)[p := o] && r.Out(Other(t)) == n.Out(Other(t))
    ensures r == n.WithOut(t, r.Out(t))
  {
    n.WithOut(t, n.Out(t)[p := o])
  }

  /** `getNumInput`. */
  function NumInput(n: Node, t: LinkType): nat
  {
    |n.In(t)|
  }

  /** `getNumOutput`. */
  function NumOutput(n: Node, t: LinkType): nat
  {
    |n.Out(t)|
  }

  // ---------------------------------------------------------------------------
  // Parameters

  /** `param(name)`: the index of the first parameter with that name, or
      `None` where `Object.cpp` hands back its null parameter. */
  function FindParam(ps: seq<Param>, name: string): (r: Option<nat>)
    ensures r.Some? ==> r.value < |ps| && ps[r.value].name == name
    ensures r.Some? ==> forall j :: 0 <= j < r.value ==> ps[j].name != name
    ensures r.None? ==> forall j :: 0 <= j < |ps| ==> ps[j].name != name
  {
    if |ps| == 0 then None
    else if ps[0].name == name then Some(0)
    else
      match FindParam(ps[1..], name)
      case None => None
      case Some(k) => Some(k + 1)
  }

  /** Appending a parameter never changes where an earlier name is found. */
  lemma {:induction false} FindParamAppend(ps: seq<Param>, p: Param, name: string)
    ensures FindParam(ps, name).Some? ==> FindParam(ps + [p], name) == FindParam(ps, name)
    ensures FindParam(ps, name).None? && p.name == name ==> FindParam(ps + [p], name) == Some(|ps|)
    ensures FindParam(ps, name).None? && p.name != name ==> FindParam(ps + [p], name) == None
  {
    if |ps| > 0 {
      assert (ps + [p])[1..] == ps[1..] + [p];
      FindParamAppend(ps[1..], p, name);
    }
  }

  /** `addParam`: register a parameter under the next free index. */
  function AddParam(n: Node, name: string, kind: ParamType): (r: Node)
    ensures |r.params| == |n.params| + 1 && r.params[..|n.params|] == n.params
    ensures r.params[|n.params|] == Param(|n.params|, name, kind)
    ensures FindParam(n.params, name).None? ==> FindParam(r.params, name) == Some(|n.params|)
    ensures forall x :: FindParam(n.params, x).Some? ==> FindParam(r.params, x) == FindParam(n.params, x)
    ensures r == n.(params := r.params)
  {
    var p := Param(|n.params|, name, kind);
    FindParamAppend(n.params, p, name);
    forall x | FindParam(n.params, x).Some?
      ensures FindParam(n.params + [p], x) == FindParam(n.params, x)
    {
      FindParamAppend(n.params, p, x);
    }
    assert (n.params + [p])[..|n.params|] == n.params;
    n.(params := n.params + [p])
  }

  // ---------------------------------------------------------------------------
  // Construction

  /** One silent block per channel. */
  function SilentAudio(info: Info): AudioBuffer
  {
    seq(info.numChannels, _ => seq(info.blockSize, _ => 0.0))
  }

  /** The `Object` constructor: sockets, envelopes and buffers sized from the
      counts given, then the common parameters in their fixed order. */
  function NewNode(info: Info, kind: int, nInAudio: nat, nInControl: nat,
                   nOutAudio: nat, nOutControl: nat, singleUpdate: bool): (n: Node)
    ensures NumInput(n, Audio) == nInAudio && NumInput(n, Control) == nInControl
    ensures NumOutput(n, Audio) == nOutAudio && NumOutput(n, Control) == nOutControl
    ensures |n.params| == N_COMMON_PARAMS
    ensures FindParam(n.params, "position") == Some(PARAM_POSITION)
    ensures FindParam(n.params, "radious") == Some(PARAM_RADIOUS)
    ensures FindParam(n.params, "mute") == Some(PARAM_MUTE)
    ensures n.mute == 0 && !n.updated && n.singleUpdate == singleUpdate
    ensures n.Visited(Audio) == {} && n.Visited(Control) == {}
    ensures !HasConnections(n)
    ensures Valid(n.outEnv) && n.outEnv.rising && Finished(n.outEnv)
    ensures forall t, i :: 0 <= i < |n.In(t)| ==>
              n.In(t)[i].kind == t && Valid(n.In(t)[i].env) && !n.In(t)[i].mustUpdate
    ensures |n.audioData| == nOutAudio && |n.controlData| == nOutControl
  {
    var bare := BareNode(info, kind, nInAudio, nInControl, nOutAudio, nOutControl, singleUpdate);
    BareNodeUnconnected(bare, Span(info.sampleRate));
    var n := WithCommonParams(bare);
    assert n.In(Audio) == bare.In(Audio) && n.In(Control) == bare.In(Control);
    assert n.Out(Audio) == bare.Out(Audio) && n.Out(Control) == bare.Out(Control);
    n
  }

  /** The constructor's member initialisers and socket vectors, before any
      parameter is registered. */
  function BareNode(info: Info, kind: int, nInAudio: nat, nInControl: nat,
                    nOutAudio: nat, nOutControl: nat, singleUpdate: bool): (n: Node)
    ensures |n.inAudio| == nInAudio && |n.inControl| == nInControl
    ensures |n.outAudio| == nOutAudio && |n.outControl| == nOutControl
    ensures forall i :: 0 <= i < |n.inAudio| ==> n.inAudio[i] == NewInSocket(Audio, Span(info.sampleRate))
    ensures forall i :: 0 <= i < |n.inControl| ==> n.inControl[i] == NewInSocket(Control, Span(info.sampleRate))
    ensures forall p :: 0 <= p < |n.outAudio| ==> n.outAudio[p] == NewOutSocket(Audio)
    ensures forall p :: 0 <= p < |n.outControl| ==> n.outControl[p] == NewOutSocket(Control)
    ensures n.params == [] && n.mute == 0 && !n.updated && n.singleUpdate == singleUpdate
    ensures n.visitedAudio == {} && n.visitedControl == {}
    ensures Valid(n.outEnv) && n.outEnv.rising && Finished(n.outEnv)
    ensures |n.audioData| == nOutAudio && |n.controlData| == nOutControl
  {
    var span := Span(info.sampleRate);
    Node(kind, info, singleUpdate, false, {}, {}, 0, [],
         seq(nInAudio, _ => NewInSocket(Audio, span)),
         seq(nInControl, _ => NewInSocket(Control, span)),
         seq(nOutAudio, _ => NewOutSocket(Audio)),
         seq(nOutControl, _ => NewOutSocket(Control)),
         SetFull(New(span)),
         seq(nOutAudio, _ => SilentAudio(info)),
         seq(nOutControl, _ => seq(info.blockSize, _ => 0.0)))
  }

  /** A node built from fresh sockets has no connection. */
  lemma BareNodeUnconnected(n: Node, span: nat)
    requires forall i :: 0 <= i < |n.inAudio| ==> n.inAudio[i] == NewInSocket(Audio, span)
    requires forall i :: 0 <= i < |n.inControl| ==> n.inControl[i] == NewInSocket(Control, span)
    requires forall p :: 0 <= p < |n.outAudio| ==> n.outAudio[p] == NewOutSocket(Audio)
    requires forall p :: 0 <= p < |n.outControl| ==> n.outControl[p] == NewOutSocket(Control)
    ensures !HasConnections(n)
    ensures forall t, i :: 0 <= i < |n.In(t)| ==>
              n.In(t)[i].kind == t && Valid(n.In(t)[i].env) && !n.In(t)[i].mustUpdate
  {
    assert n.In(Audio) == n.inAudio && n.In(Control) == n.inControl;
    assert n.Out(Audio) == n.outAudio && n.Out(Control) == n.outControl;
  }

  /** Register position, radious and mute, in that order. */
  function WithCommonParams(n: Node): (r: Node)
    requires n.params == []
    ensures |r.params| == N_COMMON_PARAMS
    ensures FindParam(r.params, "position") == Some(PARAM_POSITION)
    ensures FindParam(r.params, "radious") == Some(PARAM_RADIOUS)
    ensures FindParam(r.params, "mute") == Some(PARAM_MUTE)
    ensures r == n.(params := r.params)
  {
    var n1 := AddParam(n, "position", Vector2F);
    var n2 := AddParam(n1, "radious", Float);
    assert "radious" != "position";
    var n3 := AddParam(n2, "mute", Int);
    assert "mute" != "position" && "mute" != "radious";
    n3
  }

  // ---------------------------------------------------------------------------
  // Connection queries

  /** Some socket in the list is not `isEmpty`. */
  function AnyLive(s: seq<InSocket>): (b: bool)
    ensures b <==> exists i :: 0 <= i < |s| && s[i].src.Some?
  {
    if |s| == 0 then false else !IsEmpty(s[0]) || AnyLive(s[1..])
  }

  /** Some socket in the list is not `isEmpty`. */
  function AnyUsed(s: seq<OutSocket>): (b: bool)
    ensures b <==> exists i :: 0 <= i < |s| && |s[i].refs| > 0
  {
    if |s| == 0 then false else !IsUnused(s[0]) || AnyUsed(s[1..])
  }

  /** `hasConnections`: some input socket has a source or some output socket
      has a consumer. */
  function HasConnections(n: Node): (b: bool)
    ensures b <==> ((exists t, i :: 0 <= i < |n.In(t)| && n.In(t)[i].src.Some?) ||
                    (exists t, p :: 0 <= p < |n.Out(t)| && |n.Out(t)[p].refs| > 0))
  {
    assert n.In(Audio) == n.inAudio && n.In(Control) == n.inControl;
    assert n.Out(Audio) == n.outAudio && n.Out(Control) == n.outControl;
    AnyLive(n.inAudio) || AnyLive(n.inControl) || AnyUsed(n.outAudio) || AnyUsed(n.outControl)
  }

  // ---------------------------------------------------------------------------
  // Scheduling

  /** Outcome of `canUpdate`: whether the pull may recompute, and the node
      with its bookkeeping updated. */
  datatype Gate = Gate(ok: bool, node: Node)

  /** `canUpdate`. In single-update mode, or for a pull without a caller, a node
      recomputes once per block; otherwise once per distinct (caller, port)
      pair and link type. */
  function CanUpdate(n: Node, caller: Option<NodeId>, t: LinkType, port: int): (g: Gate)
    ensures g.node.updated
    ensures n.singleUpdate || caller.None? ==>
              g.ok == !n.updated && g.node == n.(updated := true)
    ensures !n.singleUpdate && caller.Some? ==>
              && g.ok == (Visit(caller.value, port) !in n.Visited(t))
              && g.node.Visited(t) == n.Visited(t) + {Visit(caller.value, port)}
              && g.node.Visited(Other(t)) == n.Visited(Other(t))
              && g.node == n.(updated := true).WithVisited(t, g.node.Visited(t))
  {
    if n.singleUpdate || caller.None? then
      Gate(!n.updated, n.(updated := true))
    else
      var v := Visit(caller.value, port);
      Gate(v !in n.Visited(t), n.(updated := true).WithVisited(t, n.Visited(t) + {v}))
  }

  /** A refused pull changes nothing but the `updated` flag, which was
      already set or is set now. */
  lemma RefusedPullOnlyMarks(n: Node, caller: Option<NodeId>, t: LinkType, port: int)
    requires !CanUpdate(n, caller, t, port).ok
    ensures CanUpdate(n, caller, t, port).node == n.(updated := true)
  {
    if !n.singleUpdate && caller.Some? {
      assert n.Visited(t) + {Visit(caller.value, port)} == n.Visited(t);
      match t
      case Audio =>
      case Control =>
    }
  }

  /** A second identical pull in the same block is refused. */
  lemma SecondPullRefused(n: Node, caller: Option<NodeId>, t: LinkType, port: int)
    ensures var g := CanUpdate(n, caller, t, port);
            !CanUpdate(g.node, caller, t, port).ok
  {
  }

  /** `advance`: start a new block. */
  function Advance(n: Node): (r: Node)
    ensures !r.updated
    ensures !n.singleUpdate ==> r.Visited(Audio) == {} && r.Visited(Control) == {}
    ensures n.singleUpdate ==> r.Visited(Audio) == n.Visited(Audio) && r.Visited(Control) == n.Visited(Control)
    ensures r.(updated := n.updated, visitedAudio := n.visitedAudio, visitedControl := n.visitedControl) == n
  {
    if n.singleUpdate then n.(updated := false)
    else n.(updated := false, visitedAudio := {}, visitedControl := {})
  }

  /** After `advance` every pull that a single-update node could receive, and
      every caller-less pull, is admitted again. */
  lemma AdvanceReadmits(n: Node, caller: Option<NodeId>, t: LinkType, port: int)
    ensures CanUpdate(Advance(n), caller, t, port).ok
  {
  }

  /** `updateParams`: the mute flag turns into a release (muted) or a press
      (unmuted) of the node's output envelope. Parameter callbacks are not
      modelled. */
  function UpdateParams(n: Node): (r: Node)
    ensures r.outEnv.rising <==> n.mute == 0
    ensures r.outEnv.level == n.outEnv.level && r.outEnv.span == n.outEnv.span
    ensures r == n.(outEnv := r.outEnv)
  {
    if n.mute != 0 then n.(outEnv := Release(n.outEnv))
    else n.(outEnv := Press(n.outEnv))
  }

  /** Whether `update` pulls the inputs and recomputes: unless the node is
      muted and its fade-out has finished. */
  predicate ShouldRecompute(n: Node)
  {
    n.mute == 0 || !Finished(n.outEnv)
  }

  /** A muted node whose output has faded out is skipped, and an unmuted
      node is always recomputed. */
  lemma RecomputeUnlessSilenced(n: Node)
    ensures var m := UpdateParams(n);
            ShouldRecompute(m) <==> !(n.mute != 0 && n.outEnv.level == 0)
  {
  }

  function AdvanceEnvs(s: seq<InSocket>, k: nat): (r: seq<InSocket>)
    ensures |r| == |s|
    ensures forall i :: 0 <= i < |s| ==> r[i] == s[i].(env := Envelope.Advance(s[i].env, k))
  {
    seq(|s|, i requires 0 <= i < |s| => s[i].(env := Envelope.Advance(s[i].env, k)))
  }

  /** `updateEnvelopes`: every input envelope and the mute envelope advance
      by one block; wiring, pending rewires and bookkeeping stay as they are.
      The in-place gain `Object.cpp` applies to the output buffers is not
      modelled. */
  function UpdateEnvelopes(n: Node): (r: Node)
    ensures r.outEnv == Envelope.Advance(n.outEnv, n.info.blockSize)
    ensures forall t :: |r.In(t)| == |n.In(t)|
    ensures forall t, i :: 0 <= i < |n.In(t)| ==>
              |r.In(t)| == |n.In(t)| &&
              r.In(t)[i] == n.In(t)[i].(env := Envelope.Advance(n.In(t)[i].env, n.info.blockSize))
    ensures r == n.(outEnv := r.outEnv, inAudio := r.inAudio, inControl := r.inControl)
  {
    var r := n.(inAudio := AdvanceEnvs(n.inAudio, n.info.blockSize),
                inControl := AdvanceEnvs(n.inControl, n.info.blockSize),
                outEnv := Envelope.Advance(n.outEnv, n.info.blockSize));
    assert forall t :: r.In(t) == AdvanceEnvs(n.In(t), n.info.blockSize) by {
      assert forall t: LinkType :: t.Audio? || t.Control?;
    }
    r
  }

  /** `getOutput`: a muted node hands out nothing, and neither does a link
      type other than audio (0) or control (1). */
  function GetOutput(n: Node, t: int, socket: int): (r: Option<Data>)
    requires n.mute == 0 && t == 0 ==> 0 <= socket < |n.audioData|
    requires n.mute == 0 && t == 1 ==> 0 <= socket < |n.controlData|
    ensures r.None? <==> n.mute != 0 || (t != 0 && t != 1)
    ensures r.Some? && t == 0 ==> r.value == AudioData(n.audioData[socket])
    ensures r.Some? && t == 1 ==> r.value == ControlData(n.controlData[socket])
  {
    if n.mute != 0 then None
    else if t == 0 then Some(AudioData(n.audioData[socket]))
    else if t == 1 then Some(ControlData(n.controlData[socket]))
    else None
  }
}

=== FILE: oscillator.dfy ===
/** The audio oscillator's `do_update`: the waveform generator fills channel 0
    of the audio output buffer, then channel 0 is copied into every other
    channel for one block. The waveform itself is a parameter. */
module Oscillator {
  import opened Base
  import opened Envelope
  import opened Sockets
  import opened Nodes

  /** The oscillator's single audio output port. */
  const OUT_A_OUTPUT: nat := 0

  /** Every channel the node's info announces is present and holds at least
      one block of samples. */
  predicate Fits(buf: AudioBuffer, numChannels: nat, blockSize: nat)
  {
    numChannels <= |buf| && forall c :: 0 <= c < numChannels ==> |buf[c]| >= blockSize
  }

  /** Copy the first `blockSize` samples of channel 0 over channels
      `1 .. numChannels - 1`. Samples past the block and channels past
      `numChannels` are left alone. */
  method Replicate(buf: AudioBuffer, numChannels: nat, blockSize: nat) returns (r: AudioBuffer)
    requires Fits(buf, numChannels, blockSize)
    ensures |r| == |buf|
    ensures forall c :: 0 <= c < |buf| && (c == 0 || c >= numChannels) ==> r[c] == buf[c]
    ensures forall c :: 1 <= c < numChannels ==>
              && |r[c]| == |buf[c]|
              && r[c][..blockSize] == buf[0][..blockSize]
              && r[c][blockSize..] == buf[c][blockSize..]
    ensures forall c, k :: 1 <= c < numChannels && 0 <= k < blockSize ==> r[c][k] == r[0][k]
  {
    r := buf;
    var i := 1;
    while i < numChannels
      invariant 1 <= i && (numChannels >= 1 ==> i <= numChannels)
      invariant |r| == |buf|
      invariant forall c :: 0 <= c < |buf| && (c == 0 || c >= i || c >= numChannels) ==> r[c] == buf[c]
      invariant forall c :: 1 <= c < i && c < numChannels ==>
                  r[c] == buf[0][..blockSize] + buf[c][blockSize..]
      decreases numChannels - i
    {
      r := r[i := r[0][..blockSize] + r[i][blockSize..]];
      i := i + 1;
    }
    forall c, k | 1 <= c < numChannels && 0 <= k < blockSize
      ensures r[c][k] == r[0][k]
    {
      assert r[c] == buf[0][..blockSize] + buf[c][blockSize..];
    }
  }

  /** `do_update` on an oscillator node `n`, given the block `wave` the
      waveform generator writes into channel 0. The output buffer must exist:
      `getOutput` yields nothing for a muted node, yet `update` still calls
      `doUpdate` while a muted node fades out, so this is a requirement on the
      caller rather than something the node can rely on. */
  method DoUpdate(n: Node, wave: seq<Sample>) returns (r: Node)
    requires OUT_A_OUTPUT < |n.audioData|
    requires GetOutput(n, Code(Audio), OUT_A_OUTPUT).Some?
    requires 1 <= |n.audioData[OUT_A_OUTPUT]|
    requires Fits(n.audioData[OUT_A_OUTPUT], n.info.numChannels, n.info.blockSize)
    requires |n.audioData[OUT_A_OUTPUT][0]| >= n.info.blockSize
    requires |wave| == n.info.blockSize
    ensures |r.audioData| == |n.audioData|
    ensures r == n.(audioData := n.audioData[OUT_A_OUTPUT := r.audioData[OUT_A_OUTPUT]])
    ensures var before, after := n.audioData[OUT_A_OUTPUT], r.audioData[OUT_A_OUTPUT];
            && |after| == |before|
            && after[0] == wave + before[0][n.info.blockSize..]
            && (forall c :: 1 <= c < n.info.numChannels ==>
                  after[c] == wave + before[c][n.info.blockSize..])
            && (forall c :: 1 <= c < |before| && c >= n.info.numChannels ==> after[c] == before[c])
  {
    var buf := n.audioData[OUT_A_OUTPUT];
    var bs := n.info.blockSize;
    var filled := buf[0 := wave + buf[0][bs..]];
    assert |filled[0]| == |buf[0]|;
    var copied := Replicate(filled, n.info.numChannels, bs);
    forall c | 1 <= c < n.info.numChannels
      ensures copied[c] == wave + buf[c][bs..]
    {
      assert filled[0][..bs] == wave;
      assert copied[c] == copied[c][..bs] + copied[c][bs..];
    }
    r := n.(audioData := n.audioData[OUT_A_OUTPUT := copied]);
  }

  /** Why `DoUpdate` needs its buffer requirement: a muted node whose
      fade-out is still running is recomputed, yet `getOutput` hands it no
      buffer. */
  lemma FadingNodeHasNoBuffer(n: Node)
    requires n.mute != 0 && n.outEnv.level > 0
    ensures ShouldRecompute(UpdateParams(n))
    ensures GetOutput(UpdateParams(n), Code(Audio), OUT_A_OUTPUT).None?
  {
  }
}

=== FILE: scheduler.dfy ===
/** The per-block pull (`Object::update`) and the block boundary (`advance`)
    across the whole arena. A pull admits or refuses the node through
    `canUpdate`, applies parameters, pulls the inputs and recomputes unless the
    node is muted and silent, advances the envelopes and finally applies any
    pending rewires whose fade-out has finished. */
module Scheduler {
  import opened Base
  import opened Envelope
  import opened Sockets
  import opened Nodes
  import opened Graph

  /** What a node-specific recompute (`doUpdate`) produces: the node's output
      buffers for this block. Which buffers those are depends on the node kind
      and is supplied by the caller of `Update`. */
  datatype Outputs = Outputs(audio: seq<AudioBuffer>, control: seq<ControlBuffer>)

  /** `doUpdate(caller, caller_port_type, caller_port)`: the arena as the
      pull of the inputs left it, the node, and the pull that admitted it.
      `doUpdate` writes into the buffers `getOutput` hands it and never
      resizes the node's buffer vectors, so it yields as many buffers of each
      type as the node already holds. */
  type Recompute = f: (Arena, NodeId, Option<NodeId>, LinkType, int) -> Outputs
    | forall h: Arena, id: NodeId, c: Option<NodeId>, t: LinkType, p: int :: id in h ==> KeepsCounts(h[id], f(h, id, c, t, p))
    witness (h: Arena, id: NodeId, c: Option<NodeId>, t: LinkType, p: int) =>
      if id in h then Outputs(h[id].audioData, h[id].controlData) else Outputs([], [])

  /** The buffers `o` match the node's buffer vectors in number. */
  predicate KeepsCounts(n: Node, o: Outputs)
  {
    |o.audio| == |n.audioData| && |o.control| == |n.controlData|
  }

  /** The arena after a pull, and the nodes whose `doUpdate` ran, in order. */
  datatype Pull = Pull(arena: Arena, recomputed: seq<NodeId>)

  /** The tail of `update` that runs whenever the pull was admitted:
      `updateEnvelopes` then `updateInSockets`. */
  function Finish(g: Arena, id: NodeId): (r: Arena)
    requires id in g
    ensures r.Keys == g.Keys
    ensures r[id].outEnv == Envelope.Advance(g[id].outEnv, g[id].info.blockSize)
    ensures r[id].audioData == g[id].audioData && r[id].controlData == g[id].controlData
    ensures forall u, q :: 0 <= q < |g[id].In(u)| ==>
              0 <= q < |r[id].In(u)| &&
              Settled(g[id].In(u)[q].(env := Envelope.Advance(g[id].In(u)[q].env, g[id].info.blockSize)),
                      r[id].In(u)[q])
    ensures forall k, u, q :: k in g && k != id && 0 <= q < |g[k].In(u)| ==>
              0 <= q < |r[k].In(u)| && r[k].In(u)[q] == g[k].In(u)[q]
    ensures forall k :: k in g ==> SameMarks(g[k], r[k])
  {
    var n := UpdateEnvelopes(g[id]);
    var g1 := g[id := n];
    var r := UpdateInSockets(g1, id);
    forall k, u | k in g ensures |r[k].In(u)| == |g[k].In(u)| && SameMarks(g[k], r[k]) {
      Sizes(g1, r, k, u);
    }
    r
  }

  /** The tail of `update` keeps the reverse-reference invariant when every
      rewire that is due once the envelopes have advanced fits. */
  lemma FinishKeepsConsistent(g: Arena, id: NodeId)
    requires id in g && Consistent(g) && PendingFits(g[id := UpdateEnvelopes(g[id])], id)
    ensures Consistent(Finish(g, id))
  {
    EnvelopesKeepConsistent(g, id);
    UpdateInSocketsKeepsConsistent(g[id := UpdateEnvelopes(g[id])], id);
  }

  /** The bookkeeping `canUpdate` reads is the same in both nodes. */
  predicate SameMarks(a: Node, b: Node)
  {
    && b.singleUpdate == a.singleUpdate && b.updated == a.updated
    && b.visitedAudio == a.visitedAudio && b.visitedControl == a.visitedControl
  }

  /** `update(caller, t, port)` on node `id`. `fuel` bounds the depth of the
      recursive pull of upstream nodes. Within a block a pull only adds to
      the bookkeeping of every node; a refused pull only sets `updated`; an
      admitted one ends its log with the node itself exactly when the node is
      not muted or is still fading out, and always ends with `Finish`
      (`AdmittedPullFinishes`). */
  function Update(g: Arena, id: NodeId, caller: Option<NodeId>, t: LinkType, port: int,
                  fuel: nat, compute: Recompute): (p: Pull)
    requires id in g
    ensures KeepsMarks(g, p.arena) && KeepsMarks(g[id := CanUpdate(g[id], caller, t, port).node], p.arena)
    ensures !CanUpdate(g[id], caller, t, port).ok ==> p == Pull(g[id := g[id].(updated := true)], [])
    ensures CanUpdate(g[id], caller, t, port).ok ==>
              ((|p.recomputed| > 0 && p.recomputed[|p.recomputed| - 1] == id)
               <==> !(g[id].mute != 0 && g[id].outEnv.level == 0))
    decreases fuel, 1, 0
  {
    var gate := CanUpdate(g[id], caller, t, port);
    var g1 := g[id := gate.node];
    GateKeepsMarks(g, id, caller, t, port);
    if !gate.ok then
      RefusedPullOnlyMarks(g[id], caller, t, port);
      Pull(g1, [])
    else
      var g2 := g1[id := UpdateParams(gate.node)];
      assert KeepsMarks(g1, g2);
      GateKeepsContents(g[id], caller, t, port);
      RecomputeUnlessSilenced(gate.node);
      var p := Run(g2, id, caller, t, port, fuel, compute);
      KeepsMarksTrans(g1, g2, p.arena);
      KeepsMarksTrans(g, g1, p.arena);
      p
  }

  /** The body of an admitted `update` after `updateParams`: pull the inputs
      and recompute unless the node is muted and silent, then advance the
      envelopes and apply the finished rewires. The node itself closes the
      log exactly when it is recomputed. */
  function Run(g: Arena, id: NodeId, caller: Option<NodeId>, t: LinkType, port: int,
               fuel: nat, compute: Recompute): (p: Pull)
    requires id in g
    ensures KeepsMarks(g, p.arena)
    ensures (|p.recomputed| > 0 && p.recomputed[|p.recomputed| - 1] == id) <==> ShouldRecompute(g[id])
    decreases fuel, 0, 1
  {
    if ShouldRecompute(g[id]) then
      var pulled := Pulled(g, id, fuel, compute);
      var g4 := Install(pulled.arena, id, compute(pulled.arena, id, caller, t, port));
      SameMarksKeepsMarks(pulled.arena, g4);
      SameMarksKeepsMarks(g4, Finish(g4, id));
      KeepsMarksTrans(g, pulled.arena, g4);
      KeepsMarksTrans(g, g4, Finish(g4, id));
      Pull(Finish(g4, id), pulled.recomputed + [id])
    else
      SameMarksKeepsMarks(g, Finish(g, id));
      Pull(Finish(g, id), [])
  }

  /** Store what `doUpdate` produced in the node's output buffers. */
  function Install(g: Arena, id: NodeId, o: Outputs): (r: Arena)
    requires id in g && KeepsCounts(g[id], o)
    ensures r.Keys == g.Keys
    ensures r[id].audioData == o.audio && r[id].controlData == o.control
    ensures forall k :: k in g && k != id ==> r[k] == g[k]
    ensures forall u :: r[id].In(u) == g[id].In(u) && r[id].Out(u) == g[id].Out(u)
    ensures SameMarks(g[id], r[id]) && r[id].outEnv == g[id].outEnv && r[id].info == g[id].info
  {
    g[id := g[id].(audioData := o.audio, controlData := o.control)]
  }

  /** `updateInputs`: pull the source of every audio, then every control
      input, naming this node and the input port as the caller. */
  function PullInputs(g: Arena, id: NodeId, fuel: nat, compute: Recompute): (p: Pull)
    requires id in g
    ensures KeepsMarks(g, p.arena)
    decreases fuel, 3, 0
  {
    var a := PullSockets(g, id, Audio, 0, |g[id].In(Audio)|, fuel, compute);
    var c := PullSockets(a.arena, id, Control, 0, |a.arena[id].In(Control)|, fuel, compute);
    KeepsMarksTrans(g, a.arena, c.arena);
    Pull(c.arena, a.recomputed + c.recomputed)
  }

  /** `InSocket::updateInput` for inputs `j` to `count - 1` of type `t`. */
  function PullSockets(g: Arena, id: NodeId, t: LinkType, j: nat, count: nat,
                       fuel: nat, compute: Recompute): (p: Pull)
    requires id in g
    ensures KeepsMarks(g, p.arena)
    decreases fuel, 2, count - j
  {
    if j >= count || j >= |g[id].In(t)| then Pull(g, [])
    else
      var s := g[id].In(t)[j];
      var here := if s.src.Some? && s.src.value in g then Update(g, s.src.value, Some(id), t, j, fuel, compute)
                  else Pull(g, []);
      var rest := PullSockets(here.arena, id, t, j + 1, count, fuel, compute);
      KeepsMarksTrans(g, here.arena, rest.arena);
      Pull(rest.arena, here.recomputed + rest.recomputed)
  }

  // ---------------------------------------------------------------------------
  // Deduplication within a block

  /** Between `a` and `b` the bookkeeping only grew: the mode is the same, a
      set `updated` flag stays set and the visited sets only gain pairs. */
  predicate Marked(a: Node, b: Node)
  {
    && b.singleUpdate == a.singleUpdate
    && (a.updated ==> b.updated)
    && a.visitedAudio <= b.visitedAudio && a.visitedControl <= b.visitedControl
  }

  predicate KeepsMarks(g: Arena, h: Arena)
  {
    h.Keys == g.Keys && forall k :: k in g ==> Marked(g[k], h[k])
  }

  lemma KeepsMarksTrans(a: Arena, b: Arena, c: Arena)
    requires KeepsMarks(a, b) && KeepsMarks(b, c)
    ensures KeepsMarks(a, c)
  {
  }

  lemma SameMarksKeepsMarks(g: Arena, h: Arena)
    requires h.Keys == g.Keys && forall k :: k in g ==> SameMarks(g[k], h[k])
    ensures KeepsMarks(g, h)
  {
  }

  lemma GateKeepsMarks(g: Arena, id: NodeId, caller: Option<NodeId>, t: LinkType, port: int)
    requires id in g
    ensures KeepsMarks(g, g[id := CanUpdate(g[id], caller, t, port).node])
  {
    var gate := CanUpdate(g[id], caller, t, port);
    assert gate.node.Visited(Audio) == gate.node.visitedAudio && g[id].Visited(Audio) == g[id].visitedAudio;
    assert gate.node.Visited(Control) == gate.node.visitedControl && g[id].Visited(Control) == g[id].visitedControl;
  }

  /** A second identical pull in the same block is a no-op, whatever other
      pulls ran in between (`h` is any arena whose bookkeeping only grew from
      the first pull's result): nothing changes and nothing is recomputed. */
  lemma SecondPullIsNoop(g: Arena, id: NodeId, caller: Option<NodeId>, t: LinkType, port: int,
                         fuel: nat, fuel': nat, compute: Recompute, h: Arena)
    requires id in g
    requires KeepsMarks(Update(g, id, caller, t, port, fuel, compute).arena, h)
    ensures Update(h, id, caller, t, port, fuel', compute) == Pull(h, [])
  {
    var gate := CanUpdate(g[id], caller, t, port);
    var g1 := g[id := gate.node];
    var r := Update(g, id, caller, t, port, fuel, compute).arena;
    assert Marked(g1[id], r[id]);
    assert Marked(r[id], h[id]);
    var n := h[id];
    var again := CanUpdate(n, caller, t, port);
    if n.singleUpdate || caller.None? {
      assert !again.ok && again.node == n;
    } else {
      var v := Visit(caller.value, port);
      assert v in gate.node.Visited(t);
      match t
      case Audio =>
        assert n.Visited(t) + {v} == n.Visited(t);
      case Control =>
        assert n.Visited(t) + {v} == n.Visited(t);
    }
    assert h[id := again.node] == h;
  }

  /** Once a node has been pulled in a block, every later pull that
      `canUpdate` judges by the `updated` flag alone is refused: any pull of
      a single-update node, whoever the caller, and any pull without a caller. */
  lemma LaterPullRefused(g: Arena, id: NodeId, caller: Option<NodeId>, t: LinkType, port: int,
                         fuel: nat, compute: Recompute, h: Arena,
                         caller': Option<NodeId>, t': LinkType, port': int, fuel': nat)
    requires id in g && (g[id].singleUpdate || caller'.None?)
    requires KeepsMarks(Update(g, id, caller, t, port, fuel, compute).arena, h)
    ensures Update(h, id, caller', t', port', fuel', compute) == Pull(h, [])
  {
    var gate := CanUpdate(g[id], caller, t, port);
    var r := Update(g, id, caller, t, port, fuel, compute).arena;
    assert Marked(g[id := gate.node][id], r[id]);
    assert Marked(r[id], h[id]);
    assert h[id := h[id].(updated := true)] == h;
  }

  /** A muted node whose fade-out has finished costs nothing but its
      bookkeeping: no pull, no recompute, its buffers untouched; its envelopes
      still advance and its finished rewires are still applied. */
  lemma SilencedPullSkipsRecompute(g: Arena, id: NodeId, caller: Option<NodeId>, t: LinkType, port: int,
                                   fuel: nat, compute: Recompute)
    requires id in g && CanUpdate(g[id], caller, t, port).ok
    requires g[id].mute != 0 && g[id].outEnv.level == 0
    ensures var r := Update(g, id, caller, t, port, fuel, compute);
            && r.recomputed == []
            && r.arena[id].audioData == g[id].audioData && r.arena[id].controlData == g[id].controlData
            && r.arena[id].outEnv == Envelope.Advance(Release(g[id].outEnv), g[id].info.blockSize)
            && (forall u, q :: 0 <= q < |g[id].In(u)| ==>
                  0 <= q < |r.arena[id].In(u)| &&
                  Settled(g[id].In(u)[q].(env := Envelope.Advance(g[id].In(u)[q].env, g[id].info.blockSize)),
                          r.arena[id].In(u)[q]))
            && (forall k, u, q :: k in g && k != id && 0 <= q < |g[k].In(u)| ==>
                  0 <= q < |r.arena[k].In(u)| && r.arena[k].In(u)[q] == g[k].In(u)[q])
  {
    var gate := CanUpdate(g[id], caller, t, port);
    var n2 := UpdateParams(gate.node);
    var g2 := g[id := gate.node][id := n2];
    GateKeepsContents(g[id], caller, t, port);
    assert n2.outEnv == Release(g[id].outEnv);
    AdmittedRuns(g, id, caller, t, port, fuel, compute);
    SkippedRunFinishes(g2, id, caller, t, port, fuel, compute);
    SilencedFinish(g, g2, id);
  }

  /** An admitted pull is `updateParams` followed by the rest of `update`. */
  lemma AdmittedRuns(g: Arena, id: NodeId, caller: Option<NodeId>, t: LinkType, port: int,
                     fuel: nat, compute: Recompute)
    requires id in g && CanUpdate(g[id], caller, t, port).ok
    ensures var n := CanUpdate(g[id], caller, t, port).node;
            Update(g, id, caller, t, port, fuel, compute) == Run(g[id := n][id := UpdateParams(n)], id, caller, t, port, fuel, compute)
  {
  }

  /** Whatever the pull recomputes, an admitted `update` always ends by
      advancing the node's envelopes and applying its due rewires. */
  lemma AdmittedPullFinishes(g: Arena, id: NodeId, caller: Option<NodeId>, t: LinkType, port: int,
                             fuel: nat, compute: Recompute)
    requires id in g && CanUpdate(g[id], caller, t, port).ok
    ensures exists h :: id in h && Update(g, id, caller, t, port, fuel, compute).arena == Finish(h, id)
  {
    var n := CanUpdate(g[id], caller, t, port).node;
    AdmittedRuns(g, id, caller, t, port, fuel, compute);
    RunFinishes(g[id := n][id := UpdateParams(n)], id, caller, t, port, fuel, compute);
  }

  /** The rest of an admitted `update` always comes out of `Finish`. */
  lemma RunFinishes(g: Arena, id: NodeId, caller: Option<NodeId>, t: LinkType, port: int,
                    fuel: nat, compute: Recompute)
    requires id in g
    ensures exists h :: id in h && Run(g, id, caller, t, port, fuel, compute).arena == Finish(h, id)
  {
    if ShouldRecompute(g[id]) {
      var pulled := Pulled(g, id, fuel, compute);
      var g4 := Install(pulled.arena, id, compute(pulled.arena, id, caller, t, port));
      assert Run(g, id, caller, t, port, fuel, compute).arena == Finish(g4, id);
    } else {
      assert Run(g, id, caller, t, port, fuel, compute).arena == Finish(g, id);
    }
  }

  /** Without a recompute, the rest of `update` is only its tail. */
  lemma SkippedRunFinishes(g: Arena, id: NodeId, caller: Option<NodeId>, t: LinkType, port: int,
                           fuel: nat, compute: Recompute)
    requires id in g && !ShouldRecompute(g[id])
    ensures Run(g, id, caller, t, port, fuel, compute) == Pull(Finish(g, id), [])
  {
  }

  /** Node `id` holds `o` in its output buffers. */
  predicate Stores(g: Arena, id: NodeId, o: Outputs)
  {
    id in g && g[id].audioData == o.audio && g[id].controlData == o.control
  }

  /** A recomputing run stores in the node exactly what `doUpdate` made of
      the arena the pull of its inputs left, for the caller that admitted it. */
  lemma RunRecomputes(g: Arena, id: NodeId, caller: Option<NodeId>, t: LinkType, port: int,
                      fuel: nat, compute: Recompute)
    requires id in g && ShouldRecompute(g[id])
    ensures exists h :: KeepsMarks(g, h) && (fuel > 0 ==> h == PullInputs(g, id, fuel - 1, compute).arena) &&
                        Stores(Run(g, id, caller, t, port, fuel, compute).arena, id, compute(h, id, caller, t, port))
  {
    var pulled := Pulled(g, id, fuel, compute);
    var o := compute(pulled.arena, id, caller, t, port);
    RecomputingRun(g, id, caller, t, port, fuel, compute);
    StoredThroughFinish(pulled.arena, id, o);
    assert KeepsMarks(g, pulled.arena) && (fuel > 0 ==> pulled.arena == PullInputs(g, id, fuel - 1, compute).arena) &&
           Stores(Run(g, id, caller, t, port, fuel, compute).arena, id, o);
  }

  /** What a recomputing run pulls before it calls `doUpdate`. */
  function Pulled(g: Arena, id: NodeId, fuel: nat, compute: Recompute): (p: Pull)
    requires id in g
    ensures KeepsMarks(g, p.arena)
    decreases fuel, 0, 0
  {
    if fuel == 0 then Pull(g, []) else PullInputs(g, id, fuel - 1, compute)
  }

  /** A recomputing run is the pull of the inputs, `doUpdate`, and `Finish`. */
  lemma RecomputingRun(g: Arena, id: NodeId, caller: Option<NodeId>, t: LinkType, port: int,
                       fuel: nat, compute: Recompute)
    requires id in g && ShouldRecompute(g[id])
    ensures var pulled := Pulled(g, id, fuel, compute);
            Run(g, id, caller, t, port, fuel, compute).arena
              == Finish(Install(pulled.arena, id, compute(pulled.arena, id, caller, t, port)), id)
  {
  }

  /** Storing the outputs and finishing only keep the bookkeeping. */
  lemma FinishInstallKeepsMarks(g: Arena, id: NodeId, o: Outputs)
    requires id in g && KeepsCounts(g[id], o)
    ensures KeepsMarks(g, Finish(Install(g, id, o), id))
  {
    var g4 := Install(g, id, o);
    SameMarksKeepsMarks(g, g4);
    SameMarksKeepsMarks(g4, Finish(g4, id));
    KeepsMarksTrans(g, g4, Finish(g4, id));
  }

  /** `Finish` keeps what `Install` stored. */
  lemma StoredThroughFinish(g: Arena, id: NodeId, o: Outputs)
    requires id in g && KeepsCounts(g[id], o)
    ensures Stores(Finish(Install(g, id, o), id), id, o)
  {
  }

  /** An admitted pull of a node that is not muted and silent stores in it
      what `doUpdate` computed after its inputs were pulled. */
  lemma AdmittedPullRecomputes(g: Arena, id: NodeId, caller: Option<NodeId>, t: LinkType, port: int,
                               fuel: nat, compute: Recompute)
    requires id in g && CanUpdate(g[id], caller, t, port).ok
    requires !(g[id].mute != 0 && g[id].outEnv.level == 0)
    ensures exists h :: KeepsMarks(g, h) &&
                        Stores(Update(g, id, caller, t, port, fuel, compute).arena, id, compute(h, id, caller, t, port))
  {
    var n := CanUpdate(g[id], caller, t, port).node;
    var g2 := g[id := n][id := UpdateParams(n)];
    AdmittedRuns(g, id, caller, t, port, fuel, compute);
    AdmittedNode(g, id, caller, t, port);
    RunRecomputes(g2, id, caller, t, port, fuel, compute);
    var h :| KeepsMarks(g2, h) &&
             Stores(Run(g2, id, caller, t, port, fuel, compute).arena, id, compute(h, id, caller, t, port));
    KeepsMarksTrans(g, g2, h);
    assert KeepsMarks(g, h) && Stores(Update(g, id, caller, t, port, fuel, compute).arena, id, compute(h, id, caller, t, port));
  }

  // ---------------------------------------------------------------------------
  // What the pull of the inputs reaches

  /** A single-update node already pulled this block: `canUpdate` refuses it
      every further pull. */
  predicate Sealed(n: Node)
  {
    n.singleUpdate && n.updated
  }

  /** The input sockets of node `x` are the same in `g` and `h`. */
  predicate SameInputs(g: Arena, h: Arena, x: NodeId)
    requires x in g
  {
    x in h && h[x].inAudio == g[x].inAudio && h[x].inControl == g[x].inControl
  }

  /** The tail of `update` on one node leaves every other node's inputs. */
  lemma FinishKeepsOtherInputs(g: Arena, id: NodeId, x: NodeId)
    requires id in g && x in g && x != id
    ensures SameInputs(g, Finish(g, id), x)
  {
    var g1 := g[id := UpdateEnvelopes(g[id])];
    var r := UpdateInSockets(g1, id);
    Sizes(g1, r, x, Audio);
    Sizes(g1, r, x, Control);
    assert r[x].In(Audio) == g[x].In(Audio);
    assert r[x].In(Control) == g[x].In(Control);
  }

  /** No pull changes the inputs of a sealed node: it can never be admitted
      again, and only an admitted node settles its own inputs. */
  lemma UpdateKeepsSealedInputs(g: Arena, id: NodeId, caller: Option<NodeId>, t: LinkType, port: int,
                                fuel: nat, compute: Recompute, x: NodeId)
    requires id in g && x in g && Sealed(g[x])
    ensures SameInputs(g, Update(g, id, caller, t, port, fuel, compute).arena, x)
    decreases fuel, 1, 0
  {
    var gate := CanUpdate(g[id], caller, t, port);
    if gate.ok {
      assert x != id;
      var g2 := g[id := gate.node][id := UpdateParams(gate.node)];
      assert g2[x] == g[x];
      AdmittedRuns(g, id, caller, t, port, fuel, compute);
      RunKeepsSealedInputs(g2, id, caller, t, port, fuel, compute, x);
    } else {
      assert Update(g, id, caller, t, port, fuel, compute).arena == g[id := g[id].(updated := true)];
    }
  }

  lemma RunKeepsSealedInputs(g: Arena, id: NodeId, caller: Option<NodeId>, t: LinkType, port: int,
                             fuel: nat, compute: Recompute, x: NodeId)
    requires id in g && x in g && x != id && Sealed(g[x])
    ensures SameInputs(g, Run(g, id, caller, t, port, fuel, compute).arena, x)
    decreases fuel, 0, 0
  {
    if ShouldRecompute(g[id]) && fuel > 0 {
      PullInputsKeepsSealedInputs(g, id, fuel - 1, compute, x);
      assert Pulled(g, id, fuel, compute) == PullInputs(g, id, fuel - 1, compute);
    }
    RunKeepsPulledInputs(g, id, caller, t, port, fuel, compute, x);
  }

  /** The rest of a run leaves the inputs of any other node as the pull of
      the inputs left them. */
  lemma RunKeepsPulledInputs(g: Arena, id: NodeId, caller: Option<NodeId>, t: LinkType, port: int,
                             fuel: nat, compute: Recompute, x: NodeId)
    requires id in g && x in g && x != id
    requires ShouldRecompute(g[id]) ==> SameInputs(g, Pulled(g, id, fuel, compute).arena, x)
    ensures SameInputs(g, Run(g, id, caller, t, port, fuel, compute).arena, x)
  {
    if ShouldRecompute(g[id]) {
      RecomputingRun(g, id, caller, t, port, fuel, compute);
      InstallFinishKeepsOtherInputs(g, Pulled(g, id, fuel, compute).arena, id,
                                    compute(Pulled(g, id, fuel, compute).arena, id, caller, t, port), x);
    } else {
      SkippedRunFinishes(g, id, caller, t, port, fuel, compute);
      FinishKeepsOtherInputs(g, id, x);
    }
  }

  lemma InstallFinishKeepsOtherInputs(g: Arena, h: Arena, id: NodeId, o: Outputs, x: NodeId)
    requires x in g && id in h && x != id && SameInputs(g, h, x) && KeepsCounts(h[id], o)
    ensures SameInputs(g, Finish(Install(h, id, o), id), x)
  {
    FinishKeepsOtherInputs(Install(h, id, o), id, x);
  }

  lemma PullInputsKeepsSealedInputs(g: Arena, id: NodeId, fuel: nat, compute: Recompute, x: NodeId)
    requires id in g && x in g && Sealed(g[x])
    ensures SameInputs(g, PullInputs(g, id, fuel, compute).arena, x)
    decreases fuel, 3, 0
  {
    var a := PullSockets(g, id, Audio, 0, |g[id].In(Audio)|, fuel, compute);
    PullSocketsKeepsSealedInputs(g, id, Audio, 0, |g[id].In(Audio)|, fuel, compute, x);
    PullSocketsKeepsSealedInputs(a.arena, id, Control, 0, |a.arena[id].In(Control)|, fuel, compute, x);
  }

  lemma PullSocketsKeepsSealedInputs(g: Arena, id: NodeId, t: LinkType, j: nat, count: nat,
                                     fuel: nat, compute: Recompute, x: NodeId)
    requires id in g && x in g && Sealed(g[x])
    ensures SameInputs(g, PullSockets(g, id, t, j, count, fuel, compute).arena, x)
    decreases fuel, 2, count - j
  {
    if j < count && j < |g[id].In(t)| {
      var s := g[id].In(t)[j];
      var here := if s.src.Some? && s.src.value in g then Update(g, s.src.value, Some(id), t, j, fuel, compute)
                  else Pull(g, []);
      if s.src.Some? && s.src.value in g {
        UpdateKeepsSealedInputs(g, s.src.value, Some(id), t, j, fuel, compute, x);
      }
      PullSocketsKeepsSealedInputs(here.arena, id, t, j + 1, count, fuel, compute, x);
    }
  }

  /** Node `k` has been pulled this block, and by input `q` of type `t` of
      node `id` if `k` takes one pull per connection. */
  predicate Reached(h: Arena, id: NodeId, t: LinkType, q: int, k: NodeId)
  {
    k in h && h[k].updated && (!h[k].singleUpdate ==> Visit(id, q) in h[k].Visited(t))
  }

  lemma ReachedKept(g: Arena, h: Arena, id: NodeId, t: LinkType, q: int, k: NodeId)
    requires KeepsMarks(g, h) && Reached(g, id, t, q, k)
    ensures Reached(h, id, t, q, k)
  {
    assert Marked(g[k], h[k]);
  }

  /** Pulling inputs `j` to `count - 1` of a sealed node reaches the source
      of each of them that is connected to a node in the arena. */
  lemma {:induction false} PullSocketsReaches(g: Arena, id: NodeId, t: LinkType, j: nat, count: nat,
                                              fuel: nat, compute: Recompute)
    requires id in g && Sealed(g[id])
    ensures forall q :: j <= q < count && q < |g[id].In(t)| && g[id].In(t)[q].src.Some?
                          && g[id].In(t)[q].src.value in g ==>
              Reached(PullSockets(g, id, t, j, count, fuel, compute).arena, id, t, q, g[id].In(t)[q].src.value)
    decreases count - j
  {
    if j < count && j < |g[id].In(t)| {
      var s := g[id].In(t)[j];
      var here := if s.src.Some? && s.src.value in g then Update(g, s.src.value, Some(id), t, j, fuel, compute)
                  else Pull(g, []);
      if s.src.Some? && s.src.value in g {
        var k := s.src.value;
        UpdateKeepsSealedInputs(g, k, Some(id), t, j, fuel, compute, id);
        var gate := CanUpdate(g[k], Some(id), t, j);
        assert Reached(g[k := gate.node], id, t, j, k);
        ReachedKept(g[k := gate.node], here.arena, id, t, j, k);
      }
      assert here.arena[id].In(t) == g[id].In(t);
      assert Marked(g[id], here.arena[id]);
      PullSocketsReaches(here.arena, id, t, j + 1, count, fuel, compute);
      var rest := PullSockets(here.arena, id, t, j + 1, count, fuel, compute);
      assert PullSockets(g, id, t, j, count, fuel, compute).arena == rest.arena;
      if s.src.Some? && s.src.value in g {
        ReachedKept(here.arena, rest.arena, id, t, j, s.src.value);
      }
    }
  }

  /** In `h`, the source of every connected input `id` has in `g` has been
      reached. */
  predicate ReachedAll(h: Arena, g: Arena, id: NodeId)
    requires id in g
  {
    forall u, q :: 0 <= q < |g[id].In(u)| && g[id].In(u)[q].src.Some? && g[id].In(u)[q].src.value in g ==>
      Reached(h, id, u, q, g[id].In(u)[q].src.value)
  }

  lemma ReachedAllKept(g: Arena, h: Arena, h': Arena, id: NodeId)
    requires id in g && ReachedAll(h, g, id) && KeepsMarks(h, h')
    ensures ReachedAll(h', g, id)
  {
    forall u, q | 0 <= q < |g[id].In(u)| && g[id].In(u)[q].src.Some? && g[id].In(u)[q].src.value in g
      ensures Reached(h', id, u, q, g[id].In(u)[q].src.value)
    {
      ReachedKept(h, h', id, u, q, g[id].In(u)[q].src.value);
    }
  }

  /** `updateInputs` on a sealed node reaches the source of every connected
      audio and control input. */
  lemma PullInputsReaches(g: Arena, id: NodeId, fuel: nat, compute: Recompute)
    requires id in g && Sealed(g[id])
    ensures ReachedAll(PullInputs(g, id, fuel, compute).arena, g, id)
  {
    var a := PullSockets(g, id, Audio, 0, |g[id].In(Audio)|, fuel, compute);
    PullSocketsReaches(g, id, Audio, 0, |g[id].In(Audio)|, fuel, compute);
    PullSocketsKeepsSealedInputs(g, id, Audio, 0, |g[id].In(Audio)|, fuel, compute, id);
    assert a.arena[id].In(Control) == g[id].In(Control);
    var c := PullSockets(a.arena, id, Control, 0, |a.arena[id].In(Control)|, fuel, compute);
    PullSocketsReaches(a.arena, id, Control, 0, |a.arena[id].In(Control)|, fuel, compute);
    forall q | 0 <= q < |g[id].In(Audio)| && g[id].In(Audio)[q].src.Some? && g[id].In(Audio)[q].src.value in g
      ensures Reached(c.arena, id, Audio, q, g[id].In(Audio)[q].src.value)
    {
      ReachedKept(a.arena, c.arena, id, Audio, q, g[id].In(Audio)[q].src.value);
    }
  }

  /** A recomputing run of a sealed node with fuel left reaches the source of
      every connected input before it finishes. */
  lemma RunPullsInputs(g: Arena, id: NodeId, caller: Option<NodeId>, t: LinkType, port: int,
                       fuel: nat, compute: Recompute)
    requires id in g && Sealed(g[id]) && ShouldRecompute(g[id]) && fuel > 0
    ensures ReachedAll(Run(g, id, caller, t, port, fuel, compute).arena, g, id)
  {
    var pulled := Pulled(g, id, fuel, compute);
    var o := compute(pulled.arena, id, caller, t, port);
    PullInputsReaches(g, id, fuel - 1, compute);
    assert ReachedAll(pulled.arena, g, id);
    RecomputingRun(g, id, caller, t, port, fuel, compute);
    FinishInstallKeepsMarks(pulled.arena, id, o);
    ReachedAllKept(g, pulled.arena, Finish(Install(pulled.arena, id, o), id), id);
  }

  /** An admitted pull of a single-update node that is not muted and silent
      pulls the source of every connected input, with fuel left. */
  lemma AdmittedPullPullsInputs(g: Arena, id: NodeId, caller: Option<NodeId>, t: LinkType, port: int,
                                fuel: nat, compute: Recompute)
    requires id in g && g[id].singleUpdate && CanUpdate(g[id], caller, t, port).ok
    requires !(g[id].mute != 0 && g[id].outEnv.level == 0) && fuel > 0
    ensures ReachedAll(Update(g, id, caller, t, port, fuel, compute).arena, g, id)
  {
    var n := CanUpdate(g[id], caller, t, port).node;
    var g2 := g[id := n][id := UpdateParams(n)];
    AdmittedRuns(g, id, caller, t, port, fuel, compute);
    AdmittedNode(g, id, caller, t, port);
    RunPullsInputs(g2, id, caller, t, port, fuel, compute);
  }

  /** What an admitted pull hands to the rest of `update`: the node marked,
      its inputs and keys as before, and a recompute unless it is silenced. */
  lemma AdmittedNode(g: Arena, id: NodeId, caller: Option<NodeId>, t: LinkType, port: int)
    requires id in g && CanUpdate(g[id], caller, t, port).ok
    ensures var n := CanUpdate(g[id], caller, t, port).node;
            var g2 := g[id := n][id := UpdateParams(n)];
            && KeepsMarks(g, g2) && g2[id].updated && g2[id].singleUpdate == g[id].singleUpdate
            && (forall u :: g2[id].In(u) == g[id].In(u))
            && (ShouldRecompute(g2[id]) <==> !(g[id].mute != 0 && g[id].outEnv.level == 0))
  {
    var n := CanUpdate(g[id], caller, t, port).node;
    GateKeepsContents(g[id], caller, t, port);
    RecomputeUnlessSilenced(n);
    GateKeepsMarks(g, id, caller, t, port);
    assert KeepsMarks(g[id := n], g[id := n][id := UpdateParams(n)]);
    KeepsMarksTrans(g, g[id := n], g[id := n][id := UpdateParams(n)]);
  }

  lemma SilencedFinish(g: Arena, g2: Arena, id: NodeId)
    requires id in g && g2.Keys == g.Keys
    requires forall k :: k in g && k != id ==> g2[k] == g[k]
    requires forall u :: g2[id].In(u) == g[id].In(u)
    requires g2[id].info == g[id].info && g2[id].audioData == g[id].audioData && g2[id].controlData == g[id].controlData
    ensures var r := Finish(g2, id);
            && r[id].audioData == g[id].audioData && r[id].controlData == g[id].controlData
            && r[id].outEnv == Envelope.Advance(g2[id].outEnv, g[id].info.blockSize)
            && (forall u, q :: 0 <= q < |g[id].In(u)| ==>
                  0 <= q < |r[id].In(u)| &&
                  Settled(g[id].In(u)[q].(env := Envelope.Advance(g[id].In(u)[q].env, g[id].info.blockSize)),
                          r[id].In(u)[q]))
            && (forall k, u, q :: k in g && k != id && 0 <= q < |g[k].In(u)| ==>
                  0 <= q < |r[k].In(u)| && r[k].In(u)[q] == g[k].In(u)[q])
  {
  }

  /** `canUpdate` touches only the bookkeeping. */
  lemma GateKeepsContents(n: Node, caller: Option<NodeId>, t: LinkType, port: int)
    ensures var m := CanUpdate(n, caller, t, port).node;
            && (forall u :: m.In(u) == n.In(u) && m.Out(u) == n.Out(u))
            && m.outEnv == n.outEnv && m.info == n.info && m.mute == n.mute
            && m.audioData == n.audioData && m.controlData == n.controlData
  {
  }

  // ---------------------------------------------------------------------------
  // Block boundary

  /** The driver's start of a block: `advance` on every node. */
  function AdvanceAll(g: Arena): (r: Arena)
    ensures r.Keys == g.Keys
    ensures forall k :: k in g ==> r[k] == Nodes.Advance(g[k])
  {
    map k | k in g :: Nodes.Advance(g[k])
  }

  /** After the block boundary every node admits its first pull, whoever the
      caller. */
  lemma BlockStartAdmits(g: Arena, id: NodeId, caller: Option<NodeId>, t: LinkType, port: int)
    requires id in g
    ensures CanUpdate(AdvanceAll(g)[id], caller, t, port).ok
  {
    AdvanceReadmits(g[id], caller, t, port);
  }
}

=== FILE: sockets.dfy ===
/** Input and output sockets of a node (`Object::InSocket`, `Object::OutSocket`).

    An output socket keeps the reverse-reference list of the consumers reading
    from it; an input socket names its live source and, while a declick fade is
    in progress, the source it is waiting to switch to. */
module Sockets {
  import opened Base
  import opened Envelope

  /** `LINK_AUDIO` and `LINK_CONTROL`. */
  datatype LinkType = Audio | Control

  /** The integer psychosynth uses for a link type. */
  function Code(t: LinkType): int
  {
    match t
    case Audio => 0
    case Control => 1
  }

  /** A consumer of an output socket: the consuming node and its input port. */
  datatype Ref = Ref(node: NodeId, port: int)

  datatype OutSocket = OutSocket(kind: LinkType, refs: seq<Ref>)

  /** A new output socket has no consumers. */
  function NewOutSocket(kind: LinkType): (o: OutSocket)
    ensures o.kind == kind && IsUnused(o)
  {
    OutSocket(kind, [])
  }

  /** `OutSocket::isEmpty`: nobody reads from the socket. */
  predicate IsUnused(o: OutSocket)
  {
    |o.refs| == 0
  }

  /** `addReference`: the pair is appended, so a pair may occur twice. */
  function AddReference(o: OutSocket, r: Ref): (o': OutSocket)
    ensures o'.kind == o.kind
    ensures multiset(o'.refs) == multiset(o.refs) + multiset{r}
    ensures |o'.refs| == |o.refs| + 1 && o'.refs[..|o.refs|] == o.refs && o'.refs[|o.refs|] == r
  {
    o.(refs := o.refs + [r])
  }

  /** The list with every occurrence of `r` dropped and the rest kept in order. */
  function Without(refs: seq<Ref>, r: Ref): seq<Ref>
  {
    if |refs| == 0 then []
    else if refs[0] == r then Without(refs[1..], r)
    else [refs[0]] + Without(refs[1..], r)
  }

  /** What is left after the removal: no `r`, and every other pair exactly as
      often as before. */
  lemma {:induction false} WithoutSpec(refs: seq<Ref>, r: Ref)
    ensures var s := Without(refs, r);
            && r !in s
            && (forall x :: x in s <==> x in refs && x != r)
            && (forall x :: x != r ==> multiset(s)[x] == multiset(refs)[x])
            && |s| == |refs| - multiset(refs)[r]
  {
    if |refs| > 0 {
      assert refs == [refs[0]] + refs[1..];
      WithoutSpec(refs[1..], r);
    }
  }

  /** Removal works piecewise, so the survivors keep their relative order. */
  lemma {:induction false} WithoutConcat(a: seq<Ref>, b: seq<Ref>, r: Ref)
    ensures Without(a + b, r) == Without(a, r) + Without(b, r)
  {
    if |a| == 0 {
      assert a + b == b;
    } else {
      assert (a + b)[1..] == a[1..] + b;
      WithoutConcat(a[1..], b, r);
    }
  }

  /** Removing a pair that is not there changes nothing. */
  lemma {:induction false} WithoutAbsent(a: seq<Ref>, r: Ref)
    requires r !in a
    ensures Without(a, r) == a
  {
    if |a| > 0 {
      WithoutAbsent(a[1..], r);
      assert a == [a[0]] + a[1..];
    }
  }

  /** `removeReference`: drops every occurrence of the pair. */
  function RemoveReference(o: OutSocket, r: Ref): (o': OutSocket)
    ensures o'.kind == o.kind && r !in o'.refs
    ensures forall x :: x in o'.refs <==> x in o.refs && x != r
    ensures forall x :: x != r ==> multiset(o'.refs)[x] == multiset(o.refs)[x]
  {
    WithoutSpec(o.refs, r);
    o.(refs := Without(o.refs, r))
  }

  /** Adding a fresh pair and removing it again restores the socket. */
  lemma RemoveUndoesAdd(o: OutSocket, r: Ref)
    requires r !in o.refs
    ensures RemoveReference(AddReference(o, r), r) == o
  {
    WithoutConcat(o.refs, [r], r);
    WithoutAbsent(o.refs, r);
    assert Without([r], r) == [];
  }

  /** The input side of a connection. `src`/`port` are the live source
      (`m_srcobj`/`m_srcport`); `pendingSrc`/`pendingPort`/`mustUpdate` hold a
      requested rewire (`src_obj`/`src_sock`/`must_update`); `env` is the
      socket's declick envelope. */
  datatype InSocket = InSocket(
    kind: LinkType,
    src: Option<NodeId>,
    port: int,
    pendingSrc: Option<NodeId>,
    pendingPort: int,
    mustUpdate: bool,
    env: Env)

  /** A new input socket reads from nothing, at port 0, with nothing pending. */
  function NewInSocket(kind: LinkType, span: nat): (s: InSocket)
    ensures s.kind == kind && s.src == None && s.port == 0 && IsEmpty(s)
    ensures !s.mustUpdate && Valid(s.env) && Finished(s.env)
  {
    InSocket(kind, None, 0, None, 0, false, New(span))
  }

  /** `InSocket::isEmpty`: the socket has no live source. */
  predicate IsEmpty(s: InSocket)
  {
    s.src.None?
  }

  /** `set`: overwrite the live source and port; nothing else changes. */
  function Set(s: InSocket, src: Option<NodeId>, port: int): (r: InSocket)
    ensures r.src == src && r.port == port
    ensures r.kind == s.kind && r.env == s.env && r.mustUpdate == s.mustUpdate
    ensures r.pendingSrc == s.pendingSrc && r.pendingPort == s.pendingPort
  {
    s.(src := src, port := port)
  }
}
